=== FILE: README.md ===
# slimCat settings daemon, modelled in Dafny

This project models how the slimCat chat client saves and reloads its
settings, and how it handles moderator promotions and demotions.

**Settings files.** Every settings directory holds one file, `!settings.xml`.
A directory is either a channel's directory or a character's `Global`
directory.

- **Generic path.** A channel's settings object is written through its
  property table. The writer produces a root `settings` with one leaf per
  property, and leaves out every property whose lower-cased name contains
  `command`, `is` or `enumerable`.
- **Reading the generic path.** The reader walks every descendant of the
  root. Each element goes to the first property with exactly its name, and
  its text is converted to that property's type.
- **Global path.** The static application settings are written with every
  scalar. Each string collection becomes a parent of labelled items, except
  those whose name contains `list`.
- **Reading the global path.** Blank elements are skipped. Scalars are
  assigned, and collections are cleared and refilled. Any failure is
  swallowed.
- **Orchestration.** The daemon creates a missing directory and writes a
  default file only when none exists. `GetChannelSettings` falls back to
  fresh defaults when the file cannot be read. `UpdateSettingsFile`
  rewrites a channel's file. `HasChannelSettings` asks whether a directory
  exists at the settings file's path.

**Moderator changes.** A promote/demote update has a fixed text. The server
command service updates the moderator list of the channel named by the
command, and raises an update when it knows the character.

Modules, in dependency order:

- `Wrappers`: option and result types, and the kinds of failure.
- `Text`: ASCII lower-casing, substring search and `char.IsWhiteSpace`.
- `Documents`: the element tree, `XElement.Value` and `Descendants`.
- `Coercion`:
  - property kinds and values;
  - the text `XElement` stores for a value;
  - `Convert.ChangeType` from a string to `string`, `bool` or 32-bit `int`, and its failure on a collection type.
- `FileStore`: directories and files holding documents, as value-level functions and as a `FileSystem` class.
- `SettingsRules`: the name rules, which are exclusion, the item label and the target list.
- `ObjectMapper` and `AppMapper`: the documents the two writers produce and the effect of the two readers, with their round-trip theorems.
- `SettingsModels`: the channel settings object and the static application settings, as classes.
- `Daemon`: the `SettingsDaemon` class, whose methods mirror the source's loops and are proved against the functions above. The inner loops of the two readers and of the collection writer are methods of their own.
- `Moderator`: the update text, and the `ServerCommandService` class.

## Model

| member | source | states |
|---|---|---|
| `Coercion.Coerce` | slimCat/Services/SettingsDaemon.cs:135 | A conversion that succeeds gives a value of the requested type. A string converts to itself. A string collection never converts. |
| `Coercion.ParseInt` | slimCat/Services/SettingsDaemon.cs:135 | A successful `Int32` parse gives a value within the 32-bit range. |
| `Coercion.ParseBool` | slimCat/Services/SettingsDaemon.cs:135 | A successful `Boolean` parse means the trimmed text is "True" or "False" ignoring case, as the result says. |
| `Coercion.IntRoundTrip` | slimCat/Services/SettingsDaemon.cs:100-135 | Every 32-bit integer written as decimal text parses back to itself. |
| `Coercion.CoerceRoundTrip` | slimCat/Services/SettingsDaemon.cs:100-135 | A well-typed scalar, written as an element's text and converted back to its type, gives the same value. |
| `Documents.DescendantsOfAllAppend` | slimCat/Services/SettingsDaemon.cs:129 | The pre-order descendant walk of a concatenation of elements is the concatenation of the walks. |
| `Documents.LabelledValues` | slimCat/Services/SettingsDaemon.cs:218-228 | The items of a collection, written as labelled leaves, give back exactly the items as child values. Their joined value is the items' concatenation. |
| `Text.ContainsOccurs` | slimCat/Services/SettingsDaemon.cs:98 | `Contains` holds exactly when the searched text occurs at some position of the string. |
| `FileStore.CreateDirectoryOn` | slimCat/Services/SettingsDaemon.cs:43 | Creating a directory fails exactly on an empty path or the path of a file. Otherwise it adds the directory and keeps the disk consistent. |
| `FileStore.WriteXmlOn` | slimCat/Services/SettingsDaemon.cs:104-106 | Deleting and rewriting a file fails exactly when its directory is missing or the path is a directory. Otherwise the file holds the new document, whatever it held before. |
| `FileStore.LoadXmlFrom` | slimCat/Services/SettingsDaemon.cs:126-128 | Loading gives an I/O error exactly when the file is missing, and a parse error on a file that is not XML. Otherwise it gives the document stored there. |
| `FileStore.FileSystem.CreateDirectory` | slimCat/Services/SettingsDaemon.cs:43 | The new file-system state is `CreateDirectoryOn` of the old one. A failure changes nothing. |
| `FileStore.FileSystem.WriteXml` | slimCat/Services/SettingsDaemon.cs:104-106 | The new file-system state is `WriteXmlOn` of the old one. A failure changes nothing. |
| `FileStore.FileSystem.LoadXml` | slimCat/Services/SettingsDaemon.cs:126-128 | Loading from the current state gives the `LoadXmlFrom` result. |
| `FileStore.FileSystem.DirectoryExists` | slimCat/Services/SettingsDaemon.cs:42 | The answer is true exactly when the path is a directory. |
| `FileStore.FileSystem.FileExists` | slimCat/Services/SettingsDaemon.cs:47 | The answer is true exactly when the path is a file. |
| `SettingsRules.IsExcluded` | slimCat/Services/SettingsDaemon.cs:93-98 | A property is excluded exactly when its lower-cased name contains "command", "is" or "enumerable". |
| `SettingsRules.ExcludedOccurs` | slimCat/Services/SettingsDaemon.cs:93-98 | A property is excluded exactly when one of "command", "is" and "enumerable" occurs, ignoring ASCII case, at some position of its name. |
| `SettingsRules.ListLikeOccurs` | slimCat/Services/SettingsDaemon.cs:216 | `IsListLike` holds exactly when "list" occurs, ignoring ASCII case, at some position of the name. |
| `SettingsRules.CharacterListsWritten` | slimCat/Services/SettingsDaemon.cs:216 | `Interested` and `NotInterested` are not list-like, so the global saver writes them. |
| `SettingsRules.ChildLabel` | slimCat/Services/SettingsDaemon.cs:221-225 | The label is `channel` exactly when the lower-cased name contains "channel". It is `character` when the name contains "interested" but not "channel". Otherwise it is `item`. |
| `SettingsRules.CollectionTarget` | slimCat/Services/SettingsDaemon.cs:180-186 | The target is `Interested` or `NotInterested` exactly when the name equals that word ignoring case. Otherwise it is `SavedChannels`. |
| `SettingsRules.ExclusionExamples` | slimCat/Services/SettingsDaemon.cs:93-98 | `IsPromote`, `SomeCommand`, `EnumerableThing` and `ShouldDisplay` are all excluded from writing. |
| `SettingsRules.TitleKept` | slimCat/Services/SettingsDaemon.cs:93-98 | `Title` is not excluded. |
| `SettingsRules.LabelExamples` | slimCat/Services/SettingsDaemon.cs:221-225 | `SavedChannels` items are labelled `channel`. `Interested` and `NotInterested` items are labelled `character`. |
| `SettingsRules.TargetExamples` | slimCat/Services/SettingsDaemon.cs:180-186 | A collection named `Friends` is read into `SavedChannels`. |
| `ObjectMapper.ObjectChildren` | slimCat/Services/SettingsDaemon.cs:96-102 | The root gets at most one child per property. Every child is a leaf, and none is named after an excluded property. |
| `ObjectMapper.ObjectDocument` | slimCat/Services/SettingsDaemon.cs:94-102 | The root is named `settings`, and its descendants are exactly its children, so the reader visits each written leaf once. |
| `ObjectMapper.ObjectDocumentShape` | slimCat/Services/SettingsDaemon.cs:93-101 | The serialized root is named `settings`. It holds, in property order, exactly one leaf per non-excluded property, made of the property's name and the text of its value. |
| `ObjectMapper.ExcludedNeverWritten` | slimCat/Services/SettingsDaemon.cs:98 | No written element is named after an excluded property, and every written element is a leaf. |
| `ObjectMapper.ObjectChildrenAreLeaves` | slimCat/Services/SettingsDaemon.cs:99-101 | The descendants of the serialized root are exactly its children. |
| `ObjectMapper.FirstMatch` | slimCat/Services/SettingsDaemon.cs:131-138 | The index found is the least property index with exactly the element's name, or the table's length when there is none. |
| `ObjectMapper.AssignElement` | slimCat/Services/SettingsDaemon.cs:131-138 | One element fails exactly when some property has its name and converting its value to the first such property's type fails. The failure is a conversion error. On success that first property holds the element's text converted to its type, no other property changes, and well-typedness is kept. |
| `ObjectMapper.ReadObjectRun` | slimCat/Services/SettingsDaemon.cs:129-140 | Walking the elements keeps the object's shape and well-typedness. |
| `ObjectMapper.ReadObjectRunAppend` | slimCat/Services/SettingsDaemon.cs:129-141 | Reading `a + b` is reading `a` and then, unless `a` failed, reading `b` from where `a` left the object. Nothing is rolled back. |
| `ObjectMapper.OnlyFirstMatchAssigned` | slimCat/Services/SettingsDaemon.cs:131-138 | A property that is the first match of no element keeps its value. This covers a later property whose name repeats an earlier one. |
| `ObjectMapper.UnmatchedElementsIgnored` | slimCat/Services/SettingsDaemon.cs:133 | Elements named after no property change nothing and cause no failure. |
| `ObjectMapper.ReadWrittenLeaf` | slimCat/Services/SettingsDaemon.cs:100-136 | Reading back the leaf written for a scalar property assigns that property's own value. |
| `ObjectMapper.ObjectRoundTrip` | slimCat/Services/SettingsDaemon.cs:90-144 | Serializing an object and reading it into a base object does not fail. The result is the base with every written property set to the object's value. This holds when names are unique and written properties are scalars. |
| `AppMapper.WithList` | slimCat/Services/SettingsDaemon.cs:188-190 | The chosen list holds the new items, and the other lists and the scalars are unchanged. |
| `AppMapper.IsWritten` | slimCat/Services/SettingsDaemon.cs:210-217 | Every scalar is written. A string collection is written exactly when its name is not list-like. |
| `AppMapper.AppElement` | slimCat/Services/SettingsDaemon.cs:210-229 | The element carries the property's name. A scalar's element is a leaf whose value is the scalar's text. A collection's element has the list's items as child values, in order, and their concatenation as its value. |
| `AppMapper.AppChildren` | slimCat/Services/SettingsDaemon.cs:208-231 | After `k` properties the saver has added at most `k` elements. |
| `AppMapper.AppDocument` | slimCat/Services/SettingsDaemon.cs:205-231 | The root is named `settings` and has at most one child per property. `AppDocumentShape` gives its children exactly. |
| `AppMapper.AppDocumentShape` | slimCat/Services/SettingsDaemon.cs:208-231 | The saved root's children are, in property order, the elements of the properties listed by `WrittenIndices`: a scalar as a leaf holding its text, a collection as a parent whose items are leaves labelled by `ChildLabel`. |
| `AppMapper.WrittenIndicesExact` | slimCat/Services/SettingsDaemon.cs:208-217 | The properties written are exactly every scalar and every string collection whose name does not contain "list", each once, in increasing order. |
| `AppMapper.PropertyStep` | slimCat/Services/SettingsDaemon.cs:165-193 | The inner loop for one element keeps the settings well typed. A failure leaves the state as it found it, and an element with children never fails. |
| `AppMapper.ReadAppRun` | slimCat/Services/SettingsDaemon.cs:163-194 | The walk over all descendants keeps the settings well typed. |
| `AppMapper.ReadAppRunAppend` | slimCat/Services/SettingsDaemon.cs:158-197 | A failure partway through the walk keeps every assignment made before it. There is no rollback. |
| `AppMapper.BlankElementIgnored` | slimCat/Services/SettingsDaemon.cs:169-170 | An element whose value is empty or white space never changes the settings. |
| `AppMapper.EmptyCollectionNotCleared` | slimCat/Services/SettingsDaemon.cs:169-170 | A saved collection with only blank items, or none, does not clear the list in memory on reload. |
| `AppMapper.ElementStep` | slimCat/Services/SettingsDaemon.cs:165-191 | With unique names, an element affects only the property it names. A leaf assigns its converted value. A collection element replaces the whole target list by its children's values in document order. |
| `AppMapper.UnmatchedAppElementsIgnored` | slimCat/Services/SettingsDaemon.cs:163-167 | Elements named after no property leave the settings unchanged. |
| `AppMapper.CollectionDescendants` | slimCat/Services/SettingsDaemon.cs:218-228 | A saved collection's descendants are the parent and then its items. Its value is the items' concatenation, and its child values are the items. |
| `AppMapper.AppRoundTrip` | slimCat/Services/SettingsDaemon.cs:149-238 | Saving settings and reading the file into any settings never fails. Every scalar with non-blank text takes its saved value, every list a non-blank saved collection refills takes its saved items, and everything else keeps its value. |
| `AppMapper.ReloadedSelf` | slimCat/Services/SettingsDaemon.cs:149-238 | Reading back the saved document tree onto the same settings changes nothing. |
| `AppMapper.InterestedRoundTrip` | slimCat/Services/SettingsDaemon.cs:180-190 | An `Interested` list whose items are not all blank, saved through its collection, reads back from the document tree identical and in the same order. |
| `SettingsModels.ConfigObject.SetValue` | slimCat/Services/SettingsDaemon.cs:136 | Given a value of the property's type, as reflection demands, only the assigned property changes and every property stays well typed. |
| `SettingsModels.ApplicationSettings.SetValue` | slimCat/Services/SettingsDaemon.cs:175 | Given a value of the scalar's type, as reflection demands, only the assigned scalar changes and every scalar stays well typed. |
| `SettingsModels.ApplicationSettings.Clear` | slimCat/Services/SettingsDaemon.cs:188 | The chosen list becomes empty, and nothing else changes. |
| `SettingsModels.ApplicationSettings.Add` | slimCat/Services/SettingsDaemon.cs:190 | The item is appended to the chosen list, and nothing else changes. |
| `SettingsModels.ApplicationSettings.Refill` | slimCat/Services/SettingsDaemon.cs:188-190 | The chosen list ends up holding exactly the items' values in order, whatever it held before, and nothing else changes. |
| `Daemon.EnsureDefaultFile` | slimCat/Services/SettingsDaemon.cs:38-65 | Making sure of the file succeeds exactly when the directory exists or can be created and the settings path is not a directory. On success the directory and the file exist. An existing file is never overwritten, a missing one gets the default document, and the disk stays consistent. |
| `Daemon.LoadChannel` | slimCat/Services/SettingsDaemon.cs:76-84 | A load, parse or conversion failure gives the defaults. Otherwise the result is the file read into the defaults, so a partly read object is never returned. |
| `Daemon.GlobalReload` | slimCat/Services/SettingsDaemon.cs:158-197 | A file that cannot be loaded leaves the settings as they are. Otherwise the settings are as the walk left them, even after a failure. |
| `Daemon.EnsureIdempotent` | slimCat/Services/SettingsDaemon.cs:42-51 | Making sure of the file a second time changes nothing. |
| `Daemon.HasChannelSettingsMissesFile` | slimCat/Services/SettingsDaemon.cs:251-256 | After a successful ensure, the settings path is a file and not a directory. The as-written check then answers false. |
| `Daemon.FreshChannelFileReadsDefaults` | slimCat/Services/SettingsDaemon.cs:47-51 | A newly created channel file's document tree reads back as the defaults. |
| `Daemon.ChannelSettingsRoundTrip` | slimCat/Services/SettingsDaemon.cs:243-249 | After `UpdateSettingsFile`, `GetChannelSettings` leaves the file alone. It gives every written property its saved value and every excluded property its default. |
| `Daemon.GlobalSettingsRoundTrip` | slimCat/Services/SettingsDaemon.cs:203-238 | Saving the global settings and reloading them gives the result `AppRoundTrip` describes. |
| `Daemon.FreshGlobalFileKeepsSettings` | slimCat/Services/SettingsDaemon.cs:151 | When the global file is missing, it is created from memory and its document tree is read back, and the settings are left unchanged. |
| `Daemon.LabelItems` | slimCat/Services/SettingsDaemon.cs:218-227 | The loop labels each item of a collection by `ChildLabel` of the collection's name, keeping the items' order. |
| `Daemon.AssignElementTo` | slimCat/Services/SettingsDaemon.cs:131-139 | For one element, the object ends as `AssignElement` says. Only the first property with the element's name is assigned. A failed conversion is reported and assigns nothing. |
| `Daemon.ApplyElement` | slimCat/Services/SettingsDaemon.cs:165-193 | For one element, the settings end as `PropertyStep` says. Blank values are skipped, a leaf assigns and stops, a collection element refills its target list and the loop goes on. A failed conversion leaves the settings as they were. |
| `Daemon.SettingsDaemon.SerializeObjectToXML` | slimCat/Services/SettingsDaemon.cs:90-112 | The loop builds exactly the `ObjectDocument` of the object. The disk afterwards is that document written over the file, or unchanged on failure. |
| `Daemon.SettingsDaemon.ReadObjectFromXML` | slimCat/Services/SettingsDaemon.cs:117-144 | A file that cannot be loaded is an error and nothing is assigned. Otherwise the walk over the descendants leaves the base object as `ReadObjectRun` over all descendants does. Success returns the same base object, and a failed conversion keeps earlier assignments. |
| `Daemon.SettingsDaemon.MakeSettingsFileIfNotExist` | slimCat/Services/SettingsDaemon.cs:38-52 | Its effect is `EnsureDefaultFile` with the defaults for the channel type. |
| `Daemon.SettingsDaemon.MakeGlobalSettingsFileIfNotExist` | slimCat/Services/SettingsDaemon.cs:54-65 | Its effect is `EnsureDefaultFile` with the document of the settings in memory. |
| `Daemon.SettingsDaemon.GetChannelSettings` | slimCat/Services/SettingsDaemon.cs:70-85 | Only a failure to make sure of the file is an error. Otherwise it returns a fresh object holding `LoadChannel` of the file. |
| `Daemon.SettingsDaemon.SavedElements` | slimCat/Services/SettingsDaemon.cs:210-229 | The loop body for one property adds exactly `SavedFor` of it: a scalar's leaf, a collection's element when its name is not list-like, and nothing otherwise. |
| `Daemon.SettingsDaemon.BuildAppDocument` | slimCat/Services/SettingsDaemon.cs:205-231 | The loop over the property table builds exactly the `AppDocument` of the settings in memory. |
| `Daemon.SettingsDaemon.SaveApplicationSettingsToXML` | slimCat/Services/SettingsDaemon.cs:203-238 | The `AppDocument` of the settings is written over the global file, or the disk is unchanged on failure. |
| `Daemon.SettingsDaemon.ReadApplicationSettingsFromXML` | slimCat/Services/SettingsDaemon.cs:149-198 | A failed ensure propagates and leaves the settings alone. Otherwise the walk over the descendants leaves the settings as `GlobalReload` does, and every later failure is swallowed. |
| `Daemon.SettingsDaemon.UpdateSettingsFile` | slimCat/Services/SettingsDaemon.cs:243-249 | The object's document is written over the channel's settings file. |
| `Daemon.SettingsDaemon.HasChannelSettings` | slimCat/Services/SettingsDaemon.cs:251-256 | As written, the answer is true exactly when a directory exists at the settings file's path. |
| `Daemon.SettingsDaemon.HasSettingsFile` | slimCat/Services/SettingsDaemon.cs:251-256 | As corrected, the answer is true exactly when the settings file exists. |
| `Moderator.Describe` | slimCat/Commands/Channel/ModeratorCommand.cs:30-37 | The text starts with "has been " and ends with a full stop. The lemmas below give it exactly, and `DescribeInjective` shows it determines the change. |
| `Moderator.GlobalPromoteText` | slimCat/Commands/Channel/ModeratorCommand.cs:32-33 | A promotion with no target channel reads exactly "has been promoted to global moderator.". |
| `Moderator.GlobalDemoteText` | slimCat/Commands/Channel/ModeratorCommand.cs:32-33 | A demotion with no target channel reads exactly "has been demoted from global moderator.". |
| `Moderator.ChannelPromoteText` | slimCat/Commands/Channel/ModeratorCommand.cs:35-36 | A channel promotion reads exactly "has been promoted to channel moderator in " + channel + ".". |
| `Moderator.ChannelDemoteText` | slimCat/Commands/Channel/ModeratorCommand.cs:35-36 | A channel demotion reads exactly "has been demoted from channel moderator in " + channel + ".". |
| `Moderator.DescribeInjective` | slimCat/Commands/Channel/ModeratorCommand.cs:30-37 | Two updates with the same text agree on promote or demote and on the target channel. |
| `Moderator.FindChannel` | slimCat/Commands/Channel/ModeratorCommand.cs:56 | The channel found is the first one with the id, and none is found only when no channel has it. |
| `Moderator.WithModerator` | slimCat/Commands/Channel/ModeratorCommand.cs:60-63 | The character is a moderator afterwards exactly on a promotion. No one else's status changes. |
| `Moderator.NoChannelIdIsGlobal` | slimCat/Commands/Channel/ModeratorCommand.cs:53-54 | With no channel id no channel changes, and any update raised reads as a global change. |
| `Moderator.ResolvedChannelChanged` | slimCat/Commands/Channel/ModeratorCommand.cs:56-64 | When the id names a channel, promotion adds the character to its moderators and demotion removes it, even for an unknown character. No other channel changes. |
| `Moderator.UnknownCharacterNoEvent` | slimCat/Commands/Channel/ModeratorCommand.cs:68 | No update is raised for an unknown character. |
| `Moderator.KnownCharacterChannelEvent` | slimCat/Commands/Channel/ModeratorCommand.cs:70-77 | For a known character and a resolved id, exactly one update is raised. It carries the channel's title and reads as a change in that channel. |
| `Moderator.UnknownChannelIdReadsGlobal` | slimCat/Commands/Channel/ModeratorCommand.cs:54-68 | An id that names no channel changes no channel, whether or not the character is known. For a known character the update keeps the id but has no title, so it reads as a global change. |
| `Moderator.ChannelArgument` | slimCat/Commands/Channel/ModeratorCommand.cs:83-86 | A channel id is forwarded exactly when the command has the channel argument. |
| `Moderator.PromoteOrDemoteEffect` | slimCat/Commands/Channel/ModeratorCommand.cs:49-78 | The known characters, the number of channels and every channel's id and title stay the same. Earlier updates are kept. Exactly one update is added for a known character, none otherwise, and it carries the character, the direction and the channel id. |
| `Moderator.ServerCommandService.PromoteOrDemote` | slimCat/Commands/Channel/ModeratorCommand.cs:49-78 | The new state is `PromoteOrDemoteEffect` of the old one, whose properties are the lemmas above. |
| `Moderator.ServerCommandService.OperatorPromoteCommand` | slimCat/Commands/Channel/ModeratorCommand.cs:80-89 | It promotes the command's character with the channel id if one is present. |
| `Moderator.ServerCommandService.OperatorDemoteCommand` | slimCat/Commands/Channel/ModeratorCommand.cs:91-100 | It demotes the command's character with the channel id if one is present. |

Where one might expect otherwise, the model follows the code:

- **Descendants.** Both readers walk every descendant of the root, not only its children. The items of a saved collection are therefore visited as elements too. They are harmless only because no property is named `channel`, `character` or `item`, which is why the global round trip requires that.
- **Empty values.** Only the global reader skips empty or white-space values. The generic reader converts them, which makes a blank `bool` or `int` fail.
- **Partial assignments.** A failed conversion in `ReadObjectFromXML` keeps the assignments already made to the base object. `GetChannelSettings` hides them by returning a fresh default object. The global reader has no such fallback: it keeps whatever was assigned before the failure.
- **Failures that propagate.** Neither loader catches a failure to create the directory or write the default file, because that step runs outside their `try` blocks.
- **Booleans.** They are written as `true`/`false`, the form `XElement` uses.

## Left out

- Encryption and decryption of settings files (the `encrypt`/`decrypt` flags) are an operating-system transform. The model writes and reads plain documents.
- XML text, encoding and `XElement.Load`/`Save` are not modelled; a file holds either a document tree or something that does not parse. Mixed content and attributes are not modelled.
- `ObjectMapper.ObjectRoundTrip`, `Daemon.ChannelSettingsRoundTrip`, `Daemon.GlobalSettingsRoundTrip`, `AppMapper.AppRoundTrip`, `AppMapper.ReloadedSelf`, `AppMapper.InterestedRoundTrip`, `Daemon.FreshGlobalFileKeepsSettings`, `Daemon.FreshChannelFileReadsDefaults` and `Coercion.CoerceRoundTrip` hold for the document tree, not for the file text. `XElement.Load` drops white-space-only text and turns CR LF into LF, so a string that is only white space or contains CR does not read back as saved. A string holding a character XML cannot represent makes `Save` throw after the old file was deleted, and `FileStore.WriteXmlOn` never fails that way. None of this is modelled.
- `SettingsRules.IsExcluded`, `SettingsRules.IsListLike` and `SettingsRules.ChildLabel` assume a culture whose `ToLower` maps A to Z the ASCII way and leaves every other character alone. For the ASCII property names used here this agrees with the invariant culture, which also lowers some non-ASCII letters. Under a Turkish culture `IsPromote` lower-cases to a dotless "ıspromote" and is written, and `Interested` items are labelled `item`. `SettingsRules.CollectionTarget` compares ordinally and is not affected.
- `AppMapper.AppElement` and `AppMapper.PropertyStep` assume that every string-collection property of the application settings returns one of the three static lists `SavedChannels`, `Interested` and `NotInterested`. A collection backed by any other list cannot be described. In the program its saved items would be put back into `SavedChannels`, and the list itself would never be refilled.
- Reflection is replaced by explicit property tables. Properties without setters, properties whose getter throws and null property values are not modelled.
- Types other than `string`, `bool`, 32-bit `int` and string collections are not modelled. `Convert.ChangeType` for them is culture dependent.
- `Coercion.Coerce`: `Int32.Parse` is modelled for ASCII digits and the white space `NumberStyles.Integer` allows. Culture-specific signs are not modelled.
- `StaticFunctions.MakeSafeFolderPath` is not part of this model. The daemon takes it as a function parameter. The defaults of `ChannelSettingsModel` and the property tables of `ChannelSettingsModel` and `ApplicationSettings` are parameters too.
- The file system has no directory hierarchy: creating a directory does not create its parents, and a file's directory must itself exist.
- `Moderator.ServerCommandService.OperatorPromoteCommand` and `Moderator.ServerCommandService.OperatorDemoteCommand` require the character argument. What `Get` does with a missing key is not part of this model. The argument names `character` and `channel` are those of the chat protocol, since `Constants` is not part of this model.
- `Moderator.ServerCommandService.PromoteOrDemote`: channels are values held by the service, not shared objects. Whether adding an existing moderator duplicates the entry is not modelled, because `CharacterManager` is not part of this model, and moderator lists are sets. The character objects and the event bus are a set of known names and a log of raised updates.
- slimCat/Models/MessageBase.cs depends on the clock, culture and disposal, and is not modelled.
- slimCat/Utilities/Converters/RemoveSomeConverter.cs is floating-point arithmetic in a WPF converter, and is not modelled.

## Findings

| source | as written | input that shows it | evidently intended | confidence | as-written member | corrected member |
|---|---|---|---|---|---|---|
| slimCat/Services/SettingsDaemon.cs:255 | `HasChannelSettings` asks `Directory.Exists` of the settings file's path, which answers whether a directory called `!settings.xml` exists | any channel right after `GetChannelSettings` or `UpdateSettingsFile` succeeded: the file exists, yet the answer is false (`Daemon.HasChannelSettingsMissesFile`) | `File.Exists` of that path: true once the settings file exists | not executed | `Daemon.SettingsDaemon.HasChannelSettings` | `Daemon.SettingsDaemon.HasSettingsFile` |

=== FILE: app_mapper.dfy ===
/** What the global path of the settings daemon does to documents, as
    functions: the document `SaveApplicationSettingsToXML` writes for the
    application settings, and the effect of `ReadApplicationSettingsFromXML`'s
    walk over a document. */
module AppMapper {
  import opened Wrappers
  import opened Text
  import opened Documents
  import opened Coercion
  import opened SettingsRules

  /** A property of the application settings: a scalar, or a string
      collection (declared `IList<string>` or `IEnumerable<string>`) whose
      getter returns one of the static lists. A property of another
      collection type, such as `List<string>`, is a scalar of `StringsKind`. */
  datatype AppKind = Scalar(kind: Kind) | Strings(backing: ListName)

  datatype AppProperty = AppProperty(name: string, kind: AppKind)

  /** The static state of the application settings: one value per property
      (the value at the position of a string collection is not used: its
      getter reads the list it is backed by), and the three static lists. */
  datatype AppState = AppState(values: seq<Value>, savedChannels: seq<string>,
                               interested: seq<string>, notInterested: seq<string>)

  function ListOf(st: AppState, l: ListName): seq<string>
  {
    match l
    case SavedChannels => st.savedChannels
    case Interested => st.interested
    case NotInterested => st.notInterested
  }

  /** `st` with list `l` holding `items`. */
  function WithList(st: AppState, l: ListName, items: seq<string>): (r: AppState)
    ensures ListOf(r, l) == items && r.values == st.values
    ensures forall m :: m != l ==> ListOf(r, m) == ListOf(st, m)
  {
    match l
    case SavedChannels => st.(savedChannels := items)
    case Interested => st.(interested := items)
    case NotInterested => st.(notInterested := items)
  }

  /** The type `Convert.ChangeType` is asked to convert to. */
  function DeclaredKind(p: AppProperty): Kind
  {
    match p.kind
    case Scalar(k) => k
    case Strings(_) => StringsKind
  }

  /** Every scalar property holds a value of its type. */
  predicate AppWellTyped(schema: seq<AppProperty>, st: AppState)
  {
    |st.values| == |schema| &&
    forall i :: 0 <= i < |schema| && schema[i].kind.Scalar? ==> HasKind(st.values[i], schema[i].kind.kind)
  }

  predicate AppUniqueNames(schema: seq<AppProperty>)
  {
    forall i, j :: 0 <= i < j < |schema| ==> schema[i].name != schema[j].name
  }

  // ---------------------------------------------------------------------------
  // Writing

  /** The global saver writes every scalar, whatever its name, and every
      string collection whose name does not contain "list". */
  predicate IsWritten(p: AppProperty): (r: bool)
    ensures p.kind.Scalar? ==> r
    ensures p.kind.Strings? ==> (r <==> !IsListLike(p.name))
  {
    !(p.kind.Strings? && IsListLike(p.name))
  }

  /** The element written for property `i`: a scalar as a leaf holding its
      text, a collection as a parent with one labelled leaf per item. */
  function AppElement(schema: seq<AppProperty>, st: AppState, i: nat): (r: Elem)
    requires |st.values| == |schema| && i < |schema|
    ensures r.name == schema[i].name
    ensures schema[i].kind.Scalar? ==> r.children == [] && ElementValue(r) == ToText(st.values[i])
    ensures schema[i].kind.Strings? ==>
      var items := ListOf(st, schema[i].kind.backing);
      ChildValues(r.children) == items && ElementValue(r) == Concat(items)
  {
    var name := schema[i].name;
    match schema[i].kind
    case Scalar(_) => Leaf(name, ToText(st.values[i]))
    case Strings(l) =>
      LabelledValues(ChildLabel(name), ListOf(st, l));
      Elem(name, "", Labelled(ChildLabel(name), ListOf(st, l)))
  }

  /** The elements the saver adds for property `n`, if any. */
  function SavedFor(schema: seq<AppProperty>, st: AppState, n: nat): seq<Elem>
    requires |st.values| == |schema| && n < |schema|
  {
    if IsWritten(schema[n]) then [AppElement(schema, st, n)] else []
  }

  /** The children the saver has added once it has seen the first `k`
      properties. */
  function AppChildren(schema: seq<AppProperty>, st: AppState, k: nat): (r: seq<Elem>)
    requires |st.values| == |schema| && k <= |schema|
    ensures |r| <= k
    decreases k
  {
    if k == 0 then []
    else
      AppChildren(schema, st, k - 1) + SavedFor(schema, st, k - 1)
  }

  /** The document `SaveApplicationSettingsToXML` writes. */
  function AppDocument(schema: seq<AppProperty>, st: AppState): (r: Elem)
    requires |st.values| == |schema|
    ensures r.name == "settings" && |r.children| <= |schema|
  {
    Elem("settings", "", AppChildren(schema, st, |schema|))
  }

  /** The positions of the properties the saver writes, in increasing order. */
  function WrittenIndices(schema: seq<AppProperty>, k: nat): seq<nat>
    requires k <= |schema|
    decreases k
  {
    if k == 0 then []
    else WrittenIndices(schema, k - 1) + (if IsWritten(schema[k - 1]) then [k - 1] else [])
  }

  /** `WrittenIndices` lists exactly the written properties below `k`, each
      once, in increasing order. */
  lemma {:induction false} WrittenIndicesExact(schema: seq<AppProperty>, k: nat)
    requires k <= |schema|
    ensures var r := WrittenIndices(schema, k);
      (forall m :: 0 <= m < |r| ==> r[m] < k && IsWritten(schema[r[m]])) &&
      (forall m, n :: 0 <= m < n < |r| ==> r[m] < r[n]) &&
      (forall i :: 0 <= i < k && IsWritten(schema[i]) ==> i in r)
    decreases k
  {
    if k > 0 {
      WrittenIndicesExact(schema, k - 1);
      var r := WrittenIndices(schema, k - 1);
      var extra: seq<nat> := if IsWritten(schema[k - 1]) then [k - 1] else [];
      assert WrittenIndices(schema, k) == r + extra;
      forall i | 0 <= i < k && IsWritten(schema[i])
        ensures i in r + extra
      {
        if i < k - 1 {
          assert i in r;
        } else {
          assert (r + extra)[|r|] == i;
        }
      }
    }
  }

  /** The elements written for the properties at positions `ws`, in order. */
  function AppElements(schema: seq<AppProperty>, st: AppState, ws: seq<nat>): seq<Elem>
    requires |st.values| == |schema|
    requires forall m :: 0 <= m < |ws| ==> ws[m] < |schema|
    decreases |ws|
  {
    if ws == [] then []
    else AppElements(schema, st, ws[..|ws| - 1]) + [AppElement(schema, st, ws[|ws| - 1])]
  }

  lemma AppElementsSnoc(schema: seq<AppProperty>, st: AppState, ws: seq<nat>, i: nat)
    requires |st.values| == |schema| && i < |schema|
    requires forall m :: 0 <= m < |ws| ==> ws[m] < |schema|
    ensures AppElements(schema, st, ws + [i]) == AppElements(schema, st, ws) + [AppElement(schema, st, i)]
  {
    assert (ws + [i])[..|ws|] == ws;
  }

  /** The saved root is named "settings" and holds, in property order, one
      element per written property (see `WrittenIndicesExact`): scalars with
      no name filter, string collections unless their name contains "list",
      each item of a collection a leaf named by `ChildLabel`. */
  lemma {:induction false} AppDocumentShape(schema: seq<AppProperty>, st: AppState, k: nat)
    requires |st.values| == |schema| && k <= |schema|
    ensures var ws := WrittenIndices(schema, k); forall m :: 0 <= m < |ws| ==> ws[m] < k
    ensures AppChildren(schema, st, k) == AppElements(schema, st, WrittenIndices(schema, k))
    decreases k
  {
    WrittenIndicesExact(schema, k);
    if k > 0 {
      AppDocumentShape(schema, st, k - 1);
      var ws := WrittenIndices(schema, k - 1);
      var saved := SavedFor(schema, st, k - 1);
      assert AppChildren(schema, st, k) == AppChildren(schema, st, k - 1) + saved;
      if IsWritten(schema[k - 1]) {
        assert saved == [AppElement(schema, st, k - 1)];
        assert WrittenIndices(schema, k) == ws + [k - 1];
        AppElementsSnoc(schema, st, ws, k - 1);
      } else {
        assert saved == [];
        assert WrittenIndices(schema, k) == ws;
      }
    }
  }

  // ---------------------------------------------------------------------------
  // Reading

  /** The outcome of a walk: the state reached, and whether an exception
      ended it (the reader swallows it, so the state stays as it is). */
  datatype AppRun = AppRun(state: AppState, failed: bool)

  /** The inner loop of `ReadApplicationSettingsFromXML` for element `e`,
      from property `j` on. A property named `e.name` (ordinal) is skipped
      (`continue`) when the element's value is empty or white space; a leaf is
      converted and assigned and ends the loop (`break`), a failed conversion
      throws; an element with children clears and refills the list the
      property's name selects, and the loop goes on. */
  function PropertyStep(schema: seq<AppProperty>, st: AppState, e: Elem, j: nat): (r: AppRun)
    requires |st.values| == |schema| && j <= |schema|
    ensures |r.state.values| == |schema|
    ensures AppWellTyped(schema, st) ==> AppWellTyped(schema, r.state)
    ensures r.failed ==> r.state == st
    ensures HasElements(e) ==> !r.failed
    decreases |schema| - j
  {
    if j == |schema| then AppRun(st, false)
    else if schema[j].name != e.name then PropertyStep(schema, st, e, j + 1)
    else if IsNullOrWhiteSpace(ElementValue(e)) then PropertyStep(schema, st, e, j + 1)
    else if !HasElements(e) then
      match Coerce(ElementValue(e), DeclaredKind(schema[j]))
      case None => AppRun(st, true)
      case Some(v) => AppRun(st.(values := st.values[j := v]), false)
    else
      PropertyStep(schema, WithList(st, CollectionTarget(schema[j].name), ChildValues(e.children)), e, j + 1)
  }

  /** The outer loop: every element in turn until one throws. */
  function ReadAppRun(schema: seq<AppProperty>, st: AppState, elems: seq<Elem>): (r: AppRun)
    requires |st.values| == |schema|
    ensures |r.state.values| == |schema|
    ensures AppWellTyped(schema, st) ==> AppWellTyped(schema, r.state)
    decreases |elems|
  {
    if elems == [] then AppRun(st, false)
    else
      var r := PropertyStep(schema, st, elems[0], 0);
      if r.failed then r else ReadAppRun(schema, r.state, elems[1..])
  }

  /** Reading `a + b` is reading `a` and then, unless it failed, `b` from the
      state `a` left: a failure keeps every assignment made before it. */
  lemma {:induction false} ReadAppRunAppend(schema: seq<AppProperty>, st: AppState, a: seq<Elem>, b: seq<Elem>)
    requires |st.values| == |schema|
    ensures var ra := ReadAppRun(schema, st, a);
      ReadAppRun(schema, st, a + b) == if ra.failed then ra else ReadAppRun(schema, ra.state, b)
    decreases |a|
  {
    if a == [] {
      assert a + b == b;
    } else {
      assert (a + b)[0] == a[0];
      assert (a + b)[1..] == a[1..] + b;
      var r := PropertyStep(schema, st, a[0], 0);
      if !r.failed {
        ReadAppRunAppend(schema, r.state, a[1..], b);
      }
    }
  }

  /** An element whose value is empty or white space never changes the
      settings: in particular a saved empty collection (an element with no
      children) does not clear the list in memory. */
  lemma {:induction false} BlankElementIgnored(schema: seq<AppProperty>, st: AppState, e: Elem, j: nat)
    requires |st.values| == |schema| && j <= |schema|
    requires IsNullOrWhiteSpace(ElementValue(e))
    ensures PropertyStep(schema, st, e, j) == AppRun(st, false)
    decreases |schema| - j
  {
    if j < |schema| {
      BlankElementIgnored(schema, st, e, j + 1);
    }
  }

  lemma {:induction false} NoMatchFrom(schema: seq<AppProperty>, st: AppState, e: Elem, j: nat)
    requires |st.values| == |schema| && j <= |schema|
    requires forall i :: j <= i < |schema| ==> schema[i].name != e.name
    ensures PropertyStep(schema, st, e, j) == AppRun(st, false)
    decreases |schema| - j
  {
    if j < |schema| {
      NoMatchFrom(schema, st, e, j + 1);
    }
  }

  lemma {:induction false} SkipToMatch(schema: seq<AppProperty>, st: AppState, e: Elem, j: nat, k: nat)
    requires |st.values| == |schema| && j <= k <= |schema|
    requires forall i :: j <= i < k ==> schema[i].name != e.name
    ensures PropertyStep(schema, st, e, j) == PropertyStep(schema, st, e, k)
    decreases k - j
  {
    if j < k {
      SkipToMatch(schema, st, e, j + 1, k);
    }
  }

  /** The effect of one element on the settings when property `j` is the only
      one named after it. */
  function MatchedStep(schema: seq<AppProperty>, st: AppState, e: Elem, j: nat): AppRun
    requires |st.values| == |schema| && j < |schema|
  {
    if IsNullOrWhiteSpace(ElementValue(e)) then AppRun(st, false)
    else if !HasElements(e) then
      match Coerce(ElementValue(e), DeclaredKind(schema[j]))
      case None => AppRun(st, true)
      case Some(v) => AppRun(st.(values := st.values[j := v]), false)
    else AppRun(WithList(st, CollectionTarget(schema[j].name), ChildValues(e.children)), false)
  }

  /** With unique names, an element named after property `j` affects only
      what `j` selects. A collection element replaces the whole target list
      by its children's values in document order (it is cleared first, so
      reading is not additive); a leaf assigns its converted value. */
  lemma ElementStep(schema: seq<AppProperty>, st: AppState, e: Elem, j: nat)
    requires |st.values| == |schema| && j < |schema|
    requires AppUniqueNames(schema) && schema[j].name == e.name
    ensures PropertyStep(schema, st, e, 0) == MatchedStep(schema, st, e, j)
  {
    SkipToMatch(schema, st, e, 0, j);
    if !IsNullOrWhiteSpace(ElementValue(e)) && HasElements(e) {
      var st' := WithList(st, CollectionTarget(schema[j].name), ChildValues(e.children));
      NoMatchFrom(schema, st', e, j + 1);
    } else if IsNullOrWhiteSpace(ElementValue(e)) {
      NoMatchFrom(schema, st, e, j + 1);
    }
  }

  /** Elements named after no property leave the settings as they are. */
  lemma {:induction false} UnmatchedAppElementsIgnored(schema: seq<AppProperty>, st: AppState, elems: seq<Elem>)
    requires |st.values| == |schema|
    requires forall k, i :: 0 <= k < |elems| && 0 <= i < |schema| ==> schema[i].name != elems[k].name
    ensures ReadAppRun(schema, st, elems) == AppRun(st, false)
    decreases |elems|
  {
    if elems != [] {
      NoMatchFrom(schema, st, elems[0], 0);
      UnmatchedAppElementsIgnored(schema, st, elems[1..]);
    }
  }

  // ---------------------------------------------------------------------------
  // Saving then reading

  /** No property is named like the items of a saved collection, which the
      reader's walk over all descendants also visits. */
  predicate NoItemNames(schema: seq<AppProperty>)
  {
    forall i :: 0 <= i < |schema| ==>
      schema[i].name != "channel" && schema[i].name != "character" && schema[i].name != "item"
  }

  /** Each saved collection is read back into the list its getter reads. */
  predicate CollectionsCoherent(schema: seq<AppProperty>)
  {
    forall i :: 0 <= i < |schema| && schema[i].kind.Strings? && !IsListLike(schema[i].name) ==>
      CollectionTarget(schema[i].name) == schema[i].kind.backing
  }

  /** No scalar is a collection of another type (such a value is saved as
      the concatenation of its items and cannot be converted back). */
  predicate NoScalarCollections(schema: seq<AppProperty>)
  {
    forall i :: 0 <= i < |schema| ==> schema[i].kind != Scalar(StringsKind)
  }

  predicate ReloadableSchema(schema: seq<AppProperty>)
  {
    AppUniqueNames(schema) && NoItemNames(schema) && CollectionsCoherent(schema) && NoScalarCollections(schema)
  }

  /** Property `i` is a saved collection of list `l`, and that list's
      concatenated items are not blank. */
  predicate Refills(schema: seq<AppProperty>, st: AppState, l: ListName, i: nat)
  {
    i < |schema| && schema[i].kind == Strings(l) && !IsListLike(schema[i].name)
    && !IsNullOrWhiteSpace(Concat(ListOf(st, l)))
  }

  predicate RefilledBefore(schema: seq<AppProperty>, st: AppState, l: ListName, k: nat)
    decreases k
  {
    k > 0 && (RefilledBefore(schema, st, l, k - 1) || Refills(schema, st, l, k - 1))
  }

  lemma {:induction false} RefilledBeforeAt(schema: seq<AppProperty>, st: AppState, l: ListName, i: nat, k: nat)
    requires i < k && Refills(schema, st, l, i)
    ensures RefilledBefore(schema, st, l, k)
    decreases k
  {
    if i < k - 1 {
      RefilledBeforeAt(schema, st, l, i, k - 1);
    }
  }

  function ReloadedList(schema: seq<AppProperty>, st: AppState, st0: AppState, l: ListName, k: nat): seq<string>
  {
    if RefilledBefore(schema, st, l, k) then ListOf(st, l) else ListOf(st0, l)
  }

  /** The settings `st0` becomes once the elements saved for the first `k`
      properties of `st` are read: each scalar whose saved text is not blank
      takes its saved value, each list refilled by a saved collection takes its
      saved items, and everything else keeps its value in `st0`. */
  function Reloaded(schema: seq<AppProperty>, st: AppState, st0: AppState, k: nat): (r: AppState)
    requires |st.values| == |schema| && |st0.values| == |schema|
    ensures |r.values| == |schema|
  {
    AppState(
      seq(|schema|, i requires 0 <= i < |schema| =>
        if i < k && schema[i].kind.Scalar? && !IsNullOrWhiteSpace(ToText(st.values[i]))
        then st.values[i] else st0.values[i]),
      ReloadedList(schema, st, st0, SavedChannels, k),
      ReloadedList(schema, st, st0, Interested, k),
      ReloadedList(schema, st, st0, NotInterested, k))
  }

  /** The elements saved for a string collection: the parent and its items. */
  lemma CollectionDescendants(schema: seq<AppProperty>, st: AppState, n: nat, l: ListName)
    requires |st.values| == |schema| && n < |schema| && schema[n].kind == Strings(l)
    ensures var c := AppElement(schema, st, n);
      DescendantsOfAll([c]) == [c] + c.children
      && c.children == Labelled(ChildLabel(schema[n].name), ListOf(st, l))
      && ElementValue(c) == Concat(ListOf(st, l))
      && ChildValues(c.children) == ListOf(st, l)
  {
    var c := AppElement(schema, st, n);
    var items := ListOf(st, l);
    DescendantsOfLeaves(c.children);
    assert DescendantsOfAll([c]) == [c] + DescendantsOfAll(c.children) + DescendantsOfAll([c][1..]);
    LabelledValues(ChildLabel(schema[n].name), items);
  }

  /** A saved collection whose items are all blank, in particular an empty
      one, is ignored on reading: whatever list it would refill keeps the
      items it has in memory. */
  lemma EmptyCollectionNotCleared(schema: seq<AppProperty>, st: AppState, s: AppState, n: nat, l: ListName)
    requires |st.values| == |schema| && |s.values| == |schema|
    requires n < |schema| && schema[n].kind == Strings(l)
    requires forall i :: 0 <= i < |ListOf(st, l)| ==> IsNullOrWhiteSpace(ListOf(st, l)[i])
    ensures PropertyStep(schema, s, AppElement(schema, st, n), 0) == AppRun(s, false)
  {
    CollectionDescendants(schema, st, n, l);
    ConcatBlankItems(ListOf(st, l));
    BlankElementIgnored(schema, s, AppElement(schema, st, n), 0);
  }

  lemma {:induction false} ScalarStep(schema: seq<AppProperty>, st: AppState, st0: AppState, n: nat)
    requires AppWellTyped(schema, st) && AppWellTyped(schema, st0) && ReloadableSchema(schema)
    requires n < |schema| && schema[n].kind.Scalar?
    ensures ReadAppRun(schema, Reloaded(schema, st, st0, n), [Leaf(schema[n].name, ToText(st.values[n]))])
      == AppRun(Reloaded(schema, st, st0, n + 1), false)
  {
    var c := Leaf(schema[n].name, ToText(st.values[n]));
    var before := Reloaded(schema, st, st0, n);
    var after := Reloaded(schema, st, st0, n + 1);
    assert ElementValue(c) == ToText(st.values[n]);
    ElementStep(schema, before, c, n);
    assert forall l :: RefilledBefore(schema, st, l, n + 1) == RefilledBefore(schema, st, l, n);
    if IsNullOrWhiteSpace(ToText(st.values[n])) {
      assert after.values == before.values;
    } else {
      CoerceRoundTrip(st.values[n], schema[n].kind.kind);
      assert after.values == before.values[n := st.values[n]];
    }
  }

  /** The settings after a saved collection of list `l` has been read: the
      same as before it, except that a non-blank collection refills `l`. */
  lemma {:induction false} ReloadedAfterCollection(schema: seq<AppProperty>, st: AppState, st0: AppState, n: nat, l: ListName)
    requires |st.values| == |schema| && |st0.values| == |schema|
    requires n < |schema| && schema[n].kind == Strings(l) && !IsListLike(schema[n].name)
    ensures var before := Reloaded(schema, st, st0, n);
      Reloaded(schema, st, st0, n + 1) ==
        if IsNullOrWhiteSpace(Concat(ListOf(st, l))) then before else WithList(before, l, ListOf(st, l))
  {
    var before := Reloaded(schema, st, st0, n);
    var after := Reloaded(schema, st, st0, n + 1);
    assert after.values == before.values;
    assert forall m :: m != l ==> RefilledBefore(schema, st, m, n + 1) == RefilledBefore(schema, st, m, n);
    if IsNullOrWhiteSpace(Concat(ListOf(st, l))) {
      assert RefilledBefore(schema, st, l, n + 1) == RefilledBefore(schema, st, l, n);
    } else {
      assert RefilledBefore(schema, st, l, n + 1);
    }
  }

  /** Reading the parent element of a saved collection. */
  lemma {:induction false} CollectionParentStep(schema: seq<AppProperty>, st: AppState, st0: AppState, n: nat, l: ListName)
    requires AppWellTyped(schema, st) && AppWellTyped(schema, st0) && ReloadableSchema(schema)
    requires n < |schema| && schema[n].kind == Strings(l) && !IsListLike(schema[n].name)
    ensures ReadAppRun(schema, Reloaded(schema, st, st0, n), [AppElement(schema, st, n)])
      == AppRun(Reloaded(schema, st, st0, n + 1), false)
  {
    var c := AppElement(schema, st, n);
    var before := Reloaded(schema, st, st0, n);
    CollectionDescendants(schema, st, n, l);
    ElementStep(schema, before, c, n);
    ReloadedAfterCollection(schema, st, st0, n, l);
    if !IsNullOrWhiteSpace(Concat(ListOf(st, l))) {
      assert c.children != [];
    }
    assert [c][1..] == [];
  }

  lemma {:induction false} CollectionStep(schema: seq<AppProperty>, st: AppState, st0: AppState, n: nat, l: ListName)
    requires AppWellTyped(schema, st) && AppWellTyped(schema, st0) && ReloadableSchema(schema)
    requires n < |schema| && schema[n].kind == Strings(l) && !IsListLike(schema[n].name)
    ensures ReadAppRun(schema, Reloaded(schema, st, st0, n), DescendantsOfAll([AppElement(schema, st, n)]))
      == AppRun(Reloaded(schema, st, st0, n + 1), false)
  {
    var c := AppElement(schema, st, n);
    var before := Reloaded(schema, st, st0, n);
    CollectionDescendants(schema, st, n, l);
    ReadAppRunAppend(schema, before, [c], c.children);
    CollectionParentStep(schema, st, st0, n, l);
    UnmatchedAppElementsIgnored(schema, Reloaded(schema, st, st0, n + 1), c.children);
  }

  lemma {:induction false} UnwrittenStep(schema: seq<AppProperty>, st: AppState, st0: AppState, n: nat)
    requires AppWellTyped(schema, st) && AppWellTyped(schema, st0)
    requires n < |schema| && !IsWritten(schema[n])
    ensures Reloaded(schema, st, st0, n + 1) == Reloaded(schema, st, st0, n)
  {
    assert forall l :: RefilledBefore(schema, st, l, n + 1) == RefilledBefore(schema, st, l, n);
  }

  lemma {:induction false} PropertyRoundTrip(schema: seq<AppProperty>, st: AppState, st0: AppState, n: nat)
    requires AppWellTyped(schema, st) && AppWellTyped(schema, st0) && ReloadableSchema(schema)
    requires n < |schema|
    ensures ReadAppRun(schema, Reloaded(schema, st, st0, n), DescendantsOfAll(SavedFor(schema, st, n)))
      == AppRun(Reloaded(schema, st, st0, n + 1), false)
  {
    match schema[n].kind
    case Scalar(_) =>
      var c := AppElement(schema, st, n);
      assert DescendantsOfAll([c]) == [c] + DescendantsOfAll([]) + DescendantsOfAll([c][1..]);
      ScalarStep(schema, st, st0, n);
    case Strings(l) =>
      if IsListLike(schema[n].name) {
        UnwrittenStep(schema, st, st0, n);
      } else {
        CollectionStep(schema, st, st0, n, l);
      }
  }

  lemma {:induction false} AppRoundTripPrefix(schema: seq<AppProperty>, st: AppState, st0: AppState, k: nat)
    requires AppWellTyped(schema, st) && AppWellTyped(schema, st0) && ReloadableSchema(schema)
    requires k <= |schema|
    ensures ReadAppRun(schema, st0, DescendantsOfAll(AppChildren(schema, st, k)))
      == AppRun(Reloaded(schema, st, st0, k), false)
    decreases k
  {
    if k == 0 {
      assert Reloaded(schema, st, st0, 0).values == st0.values;
    } else {
      var n := k - 1;
      var prefix := AppChildren(schema, st, n);
      var last := SavedFor(schema, st, n);
      assert AppChildren(schema, st, k) == prefix + last;
      AppRoundTripPrefix(schema, st, st0, n);
      DescendantsOfAllAppend(prefix, last);
      ReadAppRunAppend(schema, st0, DescendantsOfAll(prefix), DescendantsOfAll(last));
      PropertyRoundTrip(schema, st, st0, n);
    }
  }

  /** Saving the application settings `st` and reading the file back into
      any settings `st0` never fails, and gives `st0` with every scalar whose
      saved text is not blank set to its saved value, and every list that a
      saved, non-blank collection refills set to its saved items in the same
      order. Blank values, and lists with no saved collection, keep `st0`'s. */
  lemma AppRoundTrip(schema: seq<AppProperty>, st: AppState, st0: AppState)
    requires AppWellTyped(schema, st) && AppWellTyped(schema, st0) && ReloadableSchema(schema)
    ensures ReadAppRun(schema, st0, Descendants(AppDocument(schema, st)))
      == AppRun(Reloaded(schema, st, st0, |schema|), false)
  {
    AppRoundTripPrefix(schema, st, st0, |schema|);
  }

  /** Reading back what was saved from the same settings changes nothing. */
  lemma ReloadedSelf(schema: seq<AppProperty>, st: AppState)
    requires AppWellTyped(schema, st)
    ensures Reloaded(schema, st, st, |schema|) == st
  {
    var r := Reloaded(schema, st, st, |schema|);
    assert r.values == st.values;
    assert forall l :: ReloadedList(schema, st, st, l, |schema|) == ListOf(st, l);
  }

  /** An `Interested` list whose items are not all blank, saved through an `Interested`
      collection property reads back identical, in the same order. */
  lemma InterestedRoundTrip(schema: seq<AppProperty>, st: AppState, st0: AppState, i: nat)
    requires AppWellTyped(schema, st) && AppWellTyped(schema, st0) && ReloadableSchema(schema)
    requires i < |schema| && schema[i].kind == Strings(Interested) && !IsListLike(schema[i].name)
    requires !IsNullOrWhiteSpace(Concat(st.interested))
    ensures var r := ReadAppRun(schema, st0, Descendants(AppDocument(schema, st)));
      !r.failed && r.state.interested == st.interested
  {
    AppRoundTrip(schema, st, st0);
    RefilledBeforeAt(schema, st, Interested, i, |schema|);
  }
}

=== FILE: coercion.dfy ===
/** Property values and the two conversions the settings code applies to them:
    the text `new XElement(name, value)` stores for a value, and
    `Convert.ChangeType(text, propertyType)` when an element is read back.
    The property types modelled are `string`, `bool`, `int` (Int32) and a
    string collection. */
module Coercion {
  import opened Wrappers
  import opened Text

  /** A property's declared type. */
  datatype Kind = TextKind | BoolKind | IntKind | StringsKind

  /** A property's value. */
  datatype Value = VText(s: string) | VBool(b: bool) | VInt(n: int) | VList(items: seq<string>)

  /** An entry of a type's property table: what reflection's `GetProperties`
      reports about one property. */
  datatype Property = Property(name: string, kind: Kind)

  const Int32Min: int := -0x8000_0000
  const Int32Max: int := 0x7FFF_FFFF

  /** `v` is a value a property of type `k` can hold. */
  predicate HasKind(v: Value, k: Kind)
  {
    match k
    case TextKind => v.VText?
    case BoolKind => v.VBool?
    case IntKind => v.VInt? && Int32Min <= v.n <= Int32Max
    case StringsKind => v.VList?
  }

  /** Every value fits the type of the property at the same position. */
  predicate WellTyped(schema: seq<Property>, values: seq<Value>)
  {
    |values| == |schema| && forall i :: 0 <= i < |schema| ==> HasKind(values[i], schema[i].kind)
  }

  // ---------------------------------------------------------------------------
  // Writing: the text XElement stores for a property value

  function DigitChar(d: nat): char
    requires d < 10
  {
    ('0' as int + d) as char
  }

  /** Decimal digits of `n`, without leading zeros. */
  function NatToText(n: nat): string
    decreases n
  {
    if n < 10 then [DigitChar(n)] else NatToText(n / 10) + [DigitChar(n % 10)]
  }

  /** `int.ToString()`. */
  function IntToText(n: int): string
  {
    if n < 0 then "-" + NatToText(-n) else NatToText(n)
  }

  /** The text content `new XElement(name, value)` gives the element: a string
      as it is, a bool through XmlConvert ("true"/"false"), an int in decimal,
      a string collection as the concatenation of its items. */
  function ToText(v: Value): string
  {
    match v
    case VText(s) => s
    case VBool(b) => if b then "true" else "false"
    case VInt(n) => IntToText(n)
    case VList(items) => Concat(items)
  }

  // ---------------------------------------------------------------------------
  // Reading: Convert.ChangeType from a string

  predicate IsDigit(c: char)
  {
    '0' <= c <= '9'
  }

  predicate AllDigits(s: string)
  {
    forall i :: 0 <= i < |s| ==> IsDigit(s[i])
  }

  function DigitsValue(s: string): nat
    requires AllDigits(s)
    decreases |s|
  {
    if s == [] then 0 else DigitsValue(s[..|s| - 1]) * 10 + (s[|s| - 1] as int - '0' as int)
  }

  /** The white space `int.Parse` allows around a number (NumberStyles.Integer). */
  predicate IsNumberWhite(c: char)
  {
    c == ' ' || ('\t' <= c <= '\r')
  }

  /** What `bool.Parse` trims: white space and NUL. */
  predicate IsBoolWhite(c: char)
  {
    IsWhiteSpace(c) || c == '\0'
  }

  function TrimStart(s: string, white: char -> bool): string
  {
    if s != [] && white(s[0]) then TrimStart(s[1..], white) else s
  }

  function TrimEnd(s: string, white: char -> bool): string
  {
    if s != [] && white(s[|s| - 1]) then TrimEnd(s[..|s| - 1], white) else s
  }

  function Trim(s: string, white: char -> bool): string
  {
    TrimEnd(TrimStart(s, white), white)
  }

  /** `int.Parse(s)`: optional white space, an optional sign, at least one
      decimal digit, optional white space; a value outside Int32 throws
      (OverflowException), as does any other shape (FormatException). */
  function ParseInt(s: string): (r: Option<int>)
    ensures r.Some? ==> Int32Min <= r.value <= Int32Max
  {
    var t := Trim(s, IsNumberWhite);
    var signed := t != [] && (t[0] == '-' || t[0] == '+');
    var digits := if signed then t[1..] else t;
    if digits == [] || !AllDigits(digits) then None
    else
      var n: int := if signed && t[0] == '-' then 0 - DigitsValue(digits) as int else DigitsValue(digits);
      if Int32Min <= n <= Int32Max then Some(n) else None
  }

  /** `bool.Parse(s)`: "true" or "false" in any case, after trimming. */
  function ParseBool(s: string): (r: Option<bool>)
    ensures r.Some? ==> EqualsIgnoreCase(Trim(s, IsBoolWhite), if r.value then "True" else "False")
  {
    var t := Trim(s, IsBoolWhite);
    if EqualsIgnoreCase(t, "True") then Some(true)
    else if EqualsIgnoreCase(t, "False") then Some(false)
    else None
  }

  /** `Convert.ChangeType(text, type)`: `None` where it throws. A string is
      returned as it is; a string cannot be converted to a collection type
      (InvalidCastException). */
  function Coerce(text: string, k: Kind): (r: Option<Value>)
    ensures r.Some? ==> HasKind(r.value, k)
    ensures k == TextKind ==> r == Some(VText(text))
    ensures k == StringsKind ==> r.None?
  {
    match k
    case TextKind => Some(VText(text))
    case BoolKind =>
      (match ParseBool(text) case Some(b) => Some(VBool(b)) case None => None)
    case IntKind =>
      (match ParseInt(text) case Some(n) => Some(VInt(n)) case None => None)
    case StringsKind => None
  }

  // ---------------------------------------------------------------------------
  // Writing then reading gives the value back

  lemma {:induction false} NatToTextDigits(n: nat)
    ensures NatToText(n) != [] && AllDigits(NatToText(n))
    ensures DigitsValue(NatToText(n)) == n
    decreases n
  {
    var t := NatToText(n);
    if n >= 10 {
      NatToTextDigits(n / 10);
      var p := NatToText(n / 10);
      assert t == p + [DigitChar(n % 10)];
      assert t[..|t| - 1] == p;
    }
  }

  lemma TrimUnchanged(s: string, white: char -> bool)
    requires s != [] ==> !white(s[0]) && !white(s[|s| - 1])
    ensures Trim(s, white) == s
  {
  }

  lemma {:induction false} IntRoundTrip(n: int)
    requires Int32Min <= n <= Int32Max
    ensures ParseInt(IntToText(n)) == Some(n)
  {
    var t := IntToText(n);
    var d := NatToText(if n < 0 then -n else n);
    NatToTextDigits(if n < 0 then -n else n);
    assert IsDigit(d[0]) && IsDigit(d[|d| - 1]);
    assert t[|t| - 1] == d[|d| - 1];
    TrimUnchanged(t, IsNumberWhite);
    if n < 0 {
      assert t[1..] == d;
    } else {
      assert t == d;
    }
  }

  /** Every scalar value, written as an element's text and converted back to
      its property's type, is the value itself. */
  lemma CoerceRoundTrip(v: Value, k: Kind)
    requires HasKind(v, k) && k != StringsKind
    ensures Coerce(ToText(v), k) == Some(v)
  {
    match v
    case VInt(n) => IntRoundTrip(n);
    case VBool(b) =>
      TrimUnchanged(ToText(v), IsBoolWhite);
    case VText(_) =>
  }
}

=== FILE: daemon.dfy ===
/** The settings daemon: per-channel settings files read and written through
    a generic property table, and the global application settings file of
    each character. Directories are named by `MakeSafeFolderPath`, which is
    not part of this model and is a parameter of the daemon. */
module Daemon {
  import opened Wrappers
  import opened Text
  import opened Documents
  import opened Coercion
  import opened FileStore
  import opened SettingsRules
  import opened ObjectMapper
  import opened AppMapper
  import opened SettingsModels

  /** Only whether a channel is a private conversation matters here: its
      default settings differ. */
  datatype ChannelType = Pm | Other

  /** The settings file of a directory. */
  function SettingsFile(dir: Path): FilePath
  {
    FilePath(dir, SettingsFileName)
  }

  // ---------------------------------------------------------------------------
  // What the operations do to the disk and to the settings

  /** Making sure directory `dir` holds a settings file: the directory is
      created when it does not exist, and `doc` is written only when no
      settings file exists. */
  function EnsureDefaultFile(d: Disk, dir: Path, doc: Elem): (r: Effect)
    ensures var p := FullPath(SettingsFile(dir));
      r.outcome.Pass? <==>
        (dir in d.dirs || (dir != [] && dir !in d.files)) && (p in d.files || p !in d.dirs)
    ensures var p := FullPath(SettingsFile(dir));
      r.outcome.Pass? ==> dir in r.disk.dirs && p in r.disk.files
    ensures FullPath(SettingsFile(dir)) in d.files ==> r.disk.files == d.files
    ensures var p := FullPath(SettingsFile(dir));
      p !in d.files && r.outcome.Pass? ==> r.disk.files == d.files[p := Xml(doc)]
    ensures d.dirs <= r.disk.dirs <= d.dirs + {dir}
    ensures Consistent(d) ==> Consistent(r.disk)
  {
    var made := if dir in d.dirs then Ok(d) else CreateDirectoryOn(d, dir);
    if made.Err? then Effect(d, Fail(made.error))
    else if FullPath(SettingsFile(dir)) in made.value.files then Effect(made.value, Pass)
    else Committed(made.value, WriteXmlOn(made.value, SettingsFile(dir), doc))
  }

  /** The values `GetChannelSettings` returns once the file exists: the
      file read into the defaults when loading and every assignment succeed,
      the defaults themselves otherwise. */
  function LoadChannel(d: Disk, path: Path, schema: seq<Property>, defaults: seq<Value>): (r: seq<Value>)
    requires WellTyped(schema, defaults)
    ensures WellTyped(schema, r)
    ensures LoadXmlFrom(d, path).Err? ==> r == defaults
    ensures LoadXmlFrom(d, path).Ok? ==>
      var run := ReadObjectRun(schema, defaults, Descendants(LoadXmlFrom(d, path).value));
      r == if run.error.Some? then defaults else run.values
  {
    match LoadXmlFrom(d, path)
    case Err(_) => defaults
    case Ok(root) =>
      var run := ReadObjectRun(schema, defaults, Descendants(root));
      if run.error.Some? then defaults else run.values
  }

  /** The application settings after `ReadApplicationSettingsFromXML` has
      tried the file at `path`: unchanged when it cannot be loaded, and
      otherwise as the walk left them, even when an element failed. */
  function GlobalReload(d: Disk, path: Path, schema: seq<AppProperty>, st: AppState): (r: AppState)
    requires AppWellTyped(schema, st)
    ensures AppWellTyped(schema, r)
    ensures LoadXmlFrom(d, path).Err? ==> r == st
  {
    match LoadXmlFrom(d, path)
    case Err(_) => st
    case Ok(root) => ReadAppRun(schema, st, Descendants(root)).state
  }

  // ---------------------------------------------------------------------------
  // Properties of the orchestration

  /** Making sure of a settings file a second time changes nothing. */
  lemma EnsureIdempotent(d: Disk, dir: Path, doc: Elem, doc': Elem)
    requires EnsureDefaultFile(d, dir, doc).outcome.Pass?
    ensures var d' := EnsureDefaultFile(d, dir, doc).disk;
      EnsureDefaultFile(d', dir, doc') == Effect(d', Pass)
  {
  }

  /** Once a settings file has been made sure of, it exists as a file; a
      directory of that name does not (on a consistent disk). So asking
      `Directory.Exists` of the file's path answers false, while
      `File.Exists` answers true. */
  lemma HasChannelSettingsMissesFile(d: Disk, dir: Path, doc: Elem)
    requires Consistent(d)
    requires EnsureDefaultFile(d, dir, doc).outcome.Pass?
    ensures var d' := EnsureDefaultFile(d, dir, doc).disk;
      FullPath(SettingsFile(dir)) !in d'.dirs && FullPath(SettingsFile(dir)) in d'.files
  {
  }

  /** A missing channel settings file is created from the defaults, and
      reading it back gives the defaults. */
  lemma FreshChannelFileReadsDefaults(d: Disk, dir: Path, schema: seq<Property>, defaults: seq<Value>)
    requires WellTyped(schema, defaults) && UniqueNames(schema) && KeptAreScalars(schema)
    requires FullPath(SettingsFile(dir)) !in d.files
    requires EnsureDefaultFile(d, dir, ObjectDocument(schema, defaults)).outcome.Pass?
    ensures var d' := EnsureDefaultFile(d, dir, ObjectDocument(schema, defaults)).disk;
      LoadChannel(d', FullPath(SettingsFile(dir)), schema, defaults) == defaults
  {
    ObjectRoundTrip(schema, defaults, defaults);
    assert Overlay(schema, defaults, defaults, |schema|) == defaults;
  }

  /** Saving a channel's settings with `UpdateSettingsFile` into an existing
      directory and then asking for them with `GetChannelSettings` leaves
      the file alone and gives every written property its saved value; the
      excluded properties take the defaults. */
  lemma ChannelSettingsRoundTrip(d: Disk, dir: Path, schema: seq<Property>, defaults: seq<Value>,
                                 values: seq<Value>, doc: Elem)
    requires WellTyped(schema, defaults) && WellTyped(schema, values)
    requires UniqueNames(schema) && KeptAreScalars(schema)
    requires dir in d.dirs
    requires WriteXmlOn(d, SettingsFile(dir), ObjectDocument(schema, values)).Ok?
    ensures var d' := WriteXmlOn(d, SettingsFile(dir), ObjectDocument(schema, values)).value;
      EnsureDefaultFile(d', dir, doc) == Effect(d', Pass) &&
      LoadChannel(d', FullPath(SettingsFile(dir)), schema, defaults) == Overlay(schema, defaults, values, |schema|)
  {
    ObjectRoundTrip(schema, defaults, values);
  }

  /** Saving the application settings `st` and reading the file back into
      `st0` never fails, and gives what `AppRoundTrip` describes. */
  lemma GlobalSettingsRoundTrip(d: Disk, dir: Path, schema: seq<AppProperty>, st: AppState, st0: AppState)
    requires AppWellTyped(schema, st) && AppWellTyped(schema, st0) && ReloadableSchema(schema)
    requires WriteXmlOn(d, SettingsFile(dir), AppDocument(schema, st)).Ok?
    ensures var d' := WriteXmlOn(d, SettingsFile(dir), AppDocument(schema, st)).value;
      GlobalReload(d', FullPath(SettingsFile(dir)), schema, st0) == Reloaded(schema, st, st0, |schema|)
  {
    AppRoundTrip(schema, st, st0);
  }

  /** When the global settings file is missing, `ReadApplicationSettingsFromXML`
      creates it from the settings in memory and reads it back, which leaves
      the settings as they were. */
  lemma FreshGlobalFileKeepsSettings(d: Disk, dir: Path, schema: seq<AppProperty>, st: AppState)
    requires AppWellTyped(schema, st) && ReloadableSchema(schema)
    requires FullPath(SettingsFile(dir)) !in d.files
    requires EnsureDefaultFile(d, dir, AppDocument(schema, st)).outcome.Pass?
    ensures var d' := EnsureDefaultFile(d, dir, AppDocument(schema, st)).disk;
      GlobalReload(d', FullPath(SettingsFile(dir)), schema, st) == st
  {
    AppRoundTrip(schema, st, st);
    ReloadedSelf(schema, st);
  }

  // ---------------------------------------------------------------------------
  // The daemon

  /** The items of a saved collection, each as a leaf named by the label
      the collection's name selects. */
  method LabelItems(name: string, items: seq<string>) returns (elems: seq<Elem>)
    ensures elems == Labelled(ChildLabel(name), items)
  {
    elems := [];
    var m := 0;
    while m < |items|
      invariant m <= |items|
      invariant elems == Labelled(ChildLabel(name), items[..m])
    {
      var tag := ChildLabel(name);
      elems := elems + [Leaf(tag, items[m])];
      m := m + 1;
    }
    assert items[..m] == items;
  }

  /** The inner loop of `ReadObjectFromXML` for one element: the first
      property named after it, if any, gets the element's value converted to
      its type; `ok` is false when that conversion fails, and then nothing
      was assigned. */
  method AssignElementTo(obj: ConfigObject, element: Elem) returns (ok: bool)
    requires obj.Valid()
    modifies obj
    ensures obj.Valid()
    ensures AssignElement(obj.schema, old(obj.values), element)
      == if ok then Ok(obj.values) else Err(CoercionError)
    ensures !ok ==> obj.values == old(obj.values)
  {
    ghost var before := obj.values;
    var j := 0;
    while j < |obj.schema|
      invariant j <= |obj.schema|
      invariant obj.values == before
      invariant forall k :: 0 <= k < j ==> obj.schema[k].name != element.name
    {
      var property := obj.schema[j];
      if property.name == element.name {
        match Coerce(ElementValue(element), property.kind) {
          case None =>
            return false;
          case Some(v) =>
            obj.SetValue(j, v);
            return true;
        }
      }
      j := j + 1;
    }
    return true;
  }

  /** The inner loop of `ReadApplicationSettingsFromXML` for one element,
      as `PropertyStep` describes it; `failed` is true when a conversion
      threw, and then the settings are as they were. */
  method ApplyElement(app: ApplicationSettings, element: Elem) returns (failed: bool)
    requires app.Valid()
    modifies app
    ensures app.Valid()
    ensures PropertyStep(app.schema, old(app.State()), element, 0) == AppRun(app.State(), failed)
  {
    ghost var before := app.State();
    var j := 0;
    while j < |app.schema|
      invariant j <= |app.schema|
      invariant app.Valid()
      invariant PropertyStep(app.schema, before, element, 0) == PropertyStep(app.schema, app.State(), element, j)
    {
      var property := app.schema[j];
      if property.name == element.name {
        var value := ElementValue(element);
        if IsNullOrWhiteSpace(value) {
          j := j + 1;
          continue;
        }
        if !HasElements(element) {
          match Coerce(value, DeclaredKind(property)) {
            case None =>
              return true;
            case Some(v) =>
              app.SetValue(j, v);
              return false;
          }
        } else {
          var collection := CollectionTarget(property.name);
          app.Refill(collection, element.children);
        }
      }
      j := j + 1;
    }
    return false;
  }

  class SettingsDaemon {
    const fs: FileSystem
    const app: ApplicationSettings
    /** `StaticFunctions.MakeSafeFolderPath(character, title, id)`. */
    const safeFolder: (string, string, string) -> Path
    /** The property table of `ChannelSettingsModel`. */
    const channelSchema: seq<Property>
    /** The values of `new ChannelSettingsModel(isPm)`. */
    const channelDefaults: bool -> seq<Value>

    predicate Valid()
      reads this, fs, app
    {
      fs.Valid() && app.Valid()
      && WellTyped(channelSchema, channelDefaults(true))
      && WellTyped(channelSchema, channelDefaults(false))
    }

    constructor (fs: FileSystem, app: ApplicationSettings, safeFolder: (string, string, string) -> Path,
                 channelSchema: seq<Property>, channelDefaults: bool -> seq<Value>)
      requires fs.Valid() && app.Valid()
      requires WellTyped(channelSchema, channelDefaults(true)) && WellTyped(channelSchema, channelDefaults(false))
      ensures Valid()
      ensures this.fs == fs && this.app == app && this.safeFolder == safeFolder
      ensures this.channelSchema == channelSchema && this.channelDefaults == channelDefaults
    {
      this.fs := fs;
      this.app := app;
      this.safeFolder := safeFolder;
      this.channelSchema := channelSchema;
      this.channelDefaults := channelDefaults;
    }

    /** The directory of a character's global settings. */
    function GlobalFolder(character: string): Path
    {
      safeFolder(character, "Global", "Global")
    }

    function ChannelDefaults(chanType: ChannelType): seq<Value>
    {
      channelDefaults(chanType == Pm)
    }

    /** Writes the document of `obj` over the file, whatever it held. */
    method SerializeObjectToXML(obj: ConfigObject, file: FilePath) returns (r: Outcome)
      requires fs.Valid() && obj.Valid()
      modifies fs
      ensures fs.Valid()
      ensures Effect(fs.State(), r)
        == Committed(old(fs.State()), WriteXmlOn(old(fs.State()), file, ObjectDocument(obj.schema, obj.values)))
    {
      var children: seq<Elem> := [];
      var i := 0;
      while i < |obj.schema|
        invariant i <= |obj.schema|
        invariant children == ObjectChildren(obj.schema[..i], obj.values[..i])
      {
        var property := obj.schema[i];
        if !IsExcluded(property.name) {
          children := children + [Leaf(property.name, ToText(obj.values[i]))];
        }
        assert obj.schema[..i + 1][..i] == obj.schema[..i];
        assert obj.values[..i + 1][..i] == obj.values[..i];
        i := i + 1;
      }
      assert obj.schema[..i] == obj.schema && obj.values[..i] == obj.values;
      var root := Elem("settings", "", children);
      r := fs.WriteXml(file, root);
    }

    /** Reads the file into `baseObject` and returns it. A file that cannot
        be loaded throws before anything is assigned; a failed conversion
        throws and leaves the assignments made before it in place. */
    method ReadObjectFromXML(fileName: Path, baseObject: ConfigObject) returns (r: Result<ConfigObject>)
      requires baseObject.Valid()
      modifies baseObject
      ensures baseObject.Valid()
      ensures LoadXmlFrom(fs.State(), fileName).Err? ==>
        r == Err(LoadXmlFrom(fs.State(), fileName).error) && baseObject.values == old(baseObject.values)
      ensures LoadXmlFrom(fs.State(), fileName).Ok? ==>
        var run := ReadObjectRun(baseObject.schema, old(baseObject.values),
                                 Descendants(LoadXmlFrom(fs.State(), fileName).value));
        baseObject.values == run.values
        && (r.Ok? <==> run.error.None?)
        && (r.Ok? ==> r.value == baseObject)
        && (r.Err? ==> run.error == Some(r.error))
    {
      var loaded := fs.LoadXml(fileName);
      if loaded.Err? {
        return Err(loaded.error);
      }
      var elems := Descendants(loaded.value);
      ghost var start := baseObject.values;
      var i := 0;
      while i < |elems|
        invariant i <= |elems|
        invariant baseObject.Valid()
        invariant ReadObjectRun(baseObject.schema, start, elems)
          == ReadObjectRun(baseObject.schema, baseObject.values, elems[i..])
      {
        var element := elems[i];
        assert elems[i..][0] == element && elems[i..][1..] == elems[i + 1..];
        var ok := AssignElementTo(baseObject, element);
        if !ok {
          return Err(CoercionError);
        }
        i := i + 1;
      }
      return Ok(baseObject);
    }

    /** Makes sure a channel's directory holds a settings file, writing the
        defaults for its channel type only when none exists. */
    method MakeSettingsFileIfNotExist(character: string, title: string, id: string, chanType: ChannelType)
      returns (r: Outcome)
      requires Valid()
      modifies fs
      ensures Valid()
      ensures Effect(fs.State(), r) == EnsureDefaultFile(old(fs.State()), safeFolder(character, title, id),
                                                         ObjectDocument(channelSchema, ChannelDefaults(chanType)))
    {
      var path := safeFolder(character, title, id);
      var dirExists := fs.DirectoryExists(path);
      if !dirExists {
        var made := fs.CreateDirectory(path);
        if made.Fail? {
          return made;
        }
      }
      var workingPath := FullPath(SettingsFile(path));
      var present := fs.FileExists(workingPath);
      if !present {
        var newSettings := new ConfigObject(channelSchema, ChannelDefaults(chanType));
        r := SerializeObjectToXML(newSettings, SettingsFile(path));
      } else {
        r := Pass;
      }
    }

    /** Makes sure a character's global directory holds a settings file,
        saving the settings in memory only when none exists. */
    method MakeGlobalSettingsFileIfNotExist(character: string) returns (r: Outcome)
      requires Valid()
      modifies fs
      ensures Valid()
      ensures Effect(fs.State(), r) == EnsureDefaultFile(old(fs.State()), GlobalFolder(character),
                                                         AppDocument(app.schema, app.State()))
    {
      var path := GlobalFolder(character);
      var dirExists := fs.DirectoryExists(path);
      if !dirExists {
        var made := fs.CreateDirectory(path);
        if made.Fail? {
          return made;
        }
      }
      var workingPath := FullPath(SettingsFile(path));
      var present := fs.FileExists(workingPath);
      if !present {
        r := SaveApplicationSettingsToXML(character);
      } else {
        r := Pass;
      }
    }

    /** The settings of a channel. Failing to make sure of the file throws;
        once it exists, a file that cannot be loaded or read gives a fresh
        default object instead, so a partly read object is never returned. */
    method GetChannelSettings(character: string, title: string, id: string, chanType: ChannelType)
      returns (r: Result<ConfigObject>)
      requires Valid()
      modifies fs
      ensures Valid()
      ensures var ensured := EnsureDefaultFile(old(fs.State()), safeFolder(character, title, id),
                                               ObjectDocument(channelSchema, ChannelDefaults(chanType)));
        fs.State() == ensured.disk
        && (r.Err? <==> ensured.outcome.Fail?)
        && (r.Err? ==> r.error == ensured.outcome.error)
      ensures r.Ok? ==>
        fresh(r.value) && r.value.schema == channelSchema
        && r.value.values == LoadChannel(fs.State(), FullPath(SettingsFile(safeFolder(character, title, id))),
                                         channelSchema, ChannelDefaults(chanType))
    {
      var made := MakeSettingsFileIfNotExist(character, title, id, chanType);
      if made.Fail? {
        return Err(made.error);
      }
      var workingPath := FullPath(SettingsFile(safeFolder(character, title, id)));
      var baseObject := new ConfigObject(channelSchema, ChannelDefaults(chanType));
      r := ReadObjectFromXML(workingPath, baseObject);
      if r.Err? {
        var fallback := new ConfigObject(channelSchema, ChannelDefaults(chanType));
        r := Ok(fallback);
      }
    }

    /** The elements the saver adds for the property at position `i`. */
    method SavedElements(i: nat) returns (saved: seq<Elem>)
      requires app.Valid() && i < |app.schema|
      ensures saved == SavedFor(app.schema, app.State(), i)
    {
      var property := app.schema[i];
      saved := [];
      match property.kind {
        case Scalar(_) =>
          saved := [Leaf(property.name, ToText(app.values[i]))];
        case Strings(l) =>
          if !IsListLike(property.name) {
            var toAdd := LabelItems(property.name, ListOf(app.State(), l));
            saved := [Elem(property.name, "", toAdd)];
          }
      }
    }

    /** The document the saver builds from the application settings. */
    method BuildAppDocument() returns (root: Elem)
      requires app.Valid()
      ensures root == AppDocument(app.schema, app.State())
    {
      var children: seq<Elem> := [];
      var i := 0;
      while i < |app.schema|
        invariant i <= |app.schema|
        invariant children == AppChildren(app.schema, app.State(), i)
      {
        var saved := SavedElements(i);
        children := children + saved;
        i := i + 1;
      }
      root := Elem("settings", "", children);
    }

    /** Writes the document of the application settings over the character's
        global settings file. */
    method SaveApplicationSettingsToXML(character: string) returns (r: Outcome)
      requires fs.Valid() && app.Valid()
      modifies fs
      ensures fs.Valid()
      ensures Effect(fs.State(), r) == Committed(old(fs.State()),
        WriteXmlOn(old(fs.State()), SettingsFile(GlobalFolder(character)), AppDocument(app.schema, app.State())))
    {
      var root := BuildAppDocument();
      r := fs.WriteXml(SettingsFile(GlobalFolder(character)), root);
    }

    /** Reloads the application settings from the character's global file,
        first making sure it exists. Failing to make sure of it throws; any
        failure after that is swallowed, keeping whatever was assigned. */
    method ReadApplicationSettingsFromXML(character: string) returns (r: Outcome)
      requires Valid()
      modifies fs, app
      ensures Valid()
      ensures var ensured := EnsureDefaultFile(old(fs.State()), GlobalFolder(character),
                                               AppDocument(app.schema, old(app.State())));
        fs.State() == ensured.disk && r == ensured.outcome
        && app.State() == if r.Fail? then old(app.State())
                          else GlobalReload(fs.State(), FullPath(SettingsFile(GlobalFolder(character))),
                                            app.schema, old(app.State()))
    {
      r := MakeGlobalSettingsFileIfNotExist(character);
      if r.Fail? {
        return;
      }
      var path := FullPath(SettingsFile(GlobalFolder(character)));
      var loaded := fs.LoadXml(path);
      if loaded.Err? {
        return;
      }
      var elems := Descendants(loaded.value);
      ghost var start := app.State();
      var i := 0;
      while i < |elems|
        modifies app
        invariant i <= |elems|
        invariant app.Valid()
        invariant ReadAppRun(app.schema, start, elems) == ReadAppRun(app.schema, app.State(), elems[i..])
      {
        var element := elems[i];
        assert elems[i..][0] == element && elems[i..][1..] == elems[i + 1..];
        var failed := ApplyElement(app, element);
        if failed {
          return;
        }
        i := i + 1;
      }
    }

    /** Writes `obj` as the settings file of a channel's directory. */
    method UpdateSettingsFile(obj: ConfigObject, character: string, title: string, id: string) returns (r: Outcome)
      requires fs.Valid() && obj.Valid()
      modifies fs
      ensures fs.Valid()
      ensures Effect(fs.State(), r) == Committed(old(fs.State()),
        WriteXmlOn(old(fs.State()), SettingsFile(safeFolder(character, title, id)), ObjectDocument(obj.schema, obj.values)))
    {
      r := SerializeObjectToXML(obj, SettingsFile(safeFolder(character, title, id)));
    }

    /** As written: whether a DIRECTORY exists at the settings file's path. */
    method HasChannelSettings(character: string, title: string, id: string) returns (b: bool)
      ensures b <==> FullPath(SettingsFile(safeFolder(character, title, id))) in fs.State().dirs
    {
      b := fs.DirectoryExists(FullPath(SettingsFile(safeFolder(character, title, id))));
    }

    /** As intended: whether the settings file exists. */
    method HasSettingsFile(character: string, title: string, id: string) returns (b: bool)
      ensures b <==> FullPath(SettingsFile(safeFolder(character, title, id))) in fs.State().files
    {
      b := fs.FileExists(FullPath(SettingsFile(safeFolder(character, title, id))));
    }
  }
}

=== FILE: documents.dfy ===
/** The XML element tree that the settings files hold (System.Xml.Linq's
    XElement, without attributes, comments or interleaved text). An element has
    a name, its own text, and its child elements. */
module Documents {
  import opened Text

  datatype Elem = Elem(name: string, text: string, children: seq<Elem>)

  /** `XElement.HasElements`. */
  predicate HasElements(e: Elem)
  {
    e.children != []
  }

  /** `XElement.Value`: the element's text followed by the text of every
      descendant, in document order. */
  function ElementValue(e: Elem): string
  {
    e.text + ValueOfAll(e.children)
  }

  function ValueOfAll(es: seq<Elem>): string
    decreases es
  {
    if es == [] then ""
    else
      assert es[0] in es;
      es[0].text + ValueOfAll(es[0].children) + ValueOfAll(es[1..])
  }

  /** `XElement.Descendants()`: every element below `e` (not `e` itself), in
      pre-order. */
  function Descendants(e: Elem): seq<Elem>
  {
    DescendantsOfAll(e.children)
  }

  function DescendantsOfAll(es: seq<Elem>): seq<Elem>
    decreases es
  {
    if es == [] then []
    else
      assert es[0] in es;
      [es[0]] + DescendantsOfAll(es[0].children) + DescendantsOfAll(es[1..])
  }

  /** `new XElement(name, text)` for a text content. */
  function Leaf(name: string, text: string): Elem
  {
    Elem(name, text, [])
  }

  /** One leaf per item, all named `tag`: the children the global saver
      writes for a string collection. */
  function Labelled(tag: string, items: seq<string>): (r: seq<Elem>)
    ensures |r| == |items|
    ensures forall i :: 0 <= i < |r| ==> r[i] == Leaf(tag, items[i])
  {
    seq(|items|, i requires 0 <= i < |items| => Leaf(tag, items[i]))
  }

  /** The values of a sequence of elements, one per element (`item.Value`
      for each item of `element.Elements()`). */
  function ChildValues(es: seq<Elem>): (r: seq<string>)
    ensures |r| == |es|
    ensures forall i :: 0 <= i < |es| ==> r[i] == ElementValue(es[i])
  {
    seq(|es|, i requires 0 <= i < |es| => ElementValue(es[i]))
  }

  lemma {:induction false} DescendantsOfAllAppend(a: seq<Elem>, b: seq<Elem>)
    ensures DescendantsOfAll(a + b) == DescendantsOfAll(a) + DescendantsOfAll(b)
  {
    if a != [] {
      assert (a + b)[0] == a[0];
      assert (a + b)[1..] == a[1..] + b;
      DescendantsOfAllAppend(a[1..], b);
    } else {
      assert a + b == b;
    }
  }

  /** The descendants of a sequence of leaves are those leaves. */
  lemma {:induction false} DescendantsOfLeaves(es: seq<Elem>)
    requires forall i :: 0 <= i < |es| ==> es[i].children == []
    ensures DescendantsOfAll(es) == es
  {
    if es != [] {
      DescendantsOfLeaves(es[1..]);
    }
  }

  /** The value of a collection element written with `Labelled` children is
      the concatenation of its items, and its children's values are the items. */
  lemma {:induction false} LabelledValues(tag: string, items: seq<string>)
    ensures ValueOfAll(Labelled(tag, items)) == Concat(items)
    ensures ChildValues(Labelled(tag, items)) == items
  {
    if items != [] {
      LabelledValues(tag, items[1..]);
      assert Labelled(tag, items)[1..] == Labelled(tag, items[1..]);
    }
    forall i | 0 <= i < |items| ensures ElementValue(Leaf(tag, items[i])) == items[i] {
      assert ValueOfAll([]) == "";
    }
  }
}

=== FILE: file_store.dfy ===
/** The part of the file system the settings daemon uses: directories, and
    files holding an XML document. Paths are strings; a file is addressed by
    its directory and name, joined as `Path.Combine` joins them. */
module FileStore {
  import opened Wrappers
  import opened Documents

  type Path = string

  /** The file name every settings directory holds. */
  const SettingsFileName: string := "!settings.xml"

  datatype FilePath = FilePath(dir: Path, name: string)

  /** `Path.Combine(dir, name)` for a relative `name`: a separator is added
      unless `dir` is empty or already ends with one. */
  function Combine(dir: Path, name: string): Path
  {
    if dir == [] then name
    else if dir[|dir| - 1] in {'\\', '/', ':'} then dir + name
    else dir + "\\" + name
  }

  function FullPath(f: FilePath): Path
  {
    Combine(f.dir, f.name)
  }

  /** What a file holds: a document `XElement.Load` can parse, or anything else. */
  datatype Content = Xml(root: Elem) | Malformed

  datatype Disk = Disk(dirs: set<Path>, files: map<Path, Content>)

  /** No path names both a directory and a file. */
  predicate Consistent(d: Disk)
  {
    forall p :: p in d.files ==> p !in d.dirs
  }

  /** `Directory.CreateDirectory(dir)`: fails on an empty path or on the path
      of an existing file; otherwise the directory exists afterwards. */
  function CreateDirectoryOn(d: Disk, dir: Path): (r: Result<Disk>)
    ensures r.Ok? <==> dir != [] && dir !in d.files
    ensures r.Ok? ==> r.value.dirs == d.dirs + {dir} && r.value.files == d.files
    ensures r.Ok? && Consistent(d) ==> Consistent(r.value)
  {
    if dir == [] || dir in d.files then Err(IoError)
    else Ok(d.(dirs := d.dirs + {dir}))
  }

  /** `File.Delete(path)` followed by `File.OpenWrite(path)` and
      `XElement.Save`: fails when the directory does not exist or the path is a
      directory; otherwise the file holds `root`, whatever it held before. */
  function WriteXmlOn(d: Disk, f: FilePath, root: Elem): (r: Result<Disk>)
    ensures r.Ok? <==> (f.dir == [] || f.dir in d.dirs) && FullPath(f) !in d.dirs
    ensures r.Ok? ==> r.value.dirs == d.dirs && r.value.files == d.files[FullPath(f) := Xml(root)]
    ensures r.Ok? && Consistent(d) ==> Consistent(r.value)
  {
    var p := FullPath(f);
    if (f.dir != [] && f.dir !in d.dirs) || p in d.dirs then Err(IoError)
    else Ok(d.(files := d.files[p := Xml(root)]))
  }

  /** Opening `path` for reading and `XElement.Load`: a missing file is an I/O
      error, a file that is not XML a parse error. */
  function LoadXmlFrom(d: Disk, path: Path): (r: Result<Elem>)
    ensures r.Ok? <==> path in d.files && d.files[path].Xml?
    ensures r.Ok? ==> d.files[path] == Xml(r.value)
    ensures r == Err(IoError) <==> path !in d.files
    ensures path in d.files && d.files[path].Malformed? ==> r == Err(ParseError)
  {
    if path !in d.files then Err(IoError)
    else match d.files[path]
      case Malformed => Err(ParseError)
      case Xml(root) => Ok(root)
  }

  /** The disk after an operation, and whether it threw. */
  datatype Effect = Effect(disk: Disk, outcome: Outcome)

  /** The effect of a step that either succeeds with a new disk or throws
      and leaves the disk as it was. */
  function Committed(d: Disk, r: Result<Disk>): (e: Effect)
    ensures e.outcome.Pass? <==> r.Ok?
    ensures r.Ok? ==> e.disk == r.value
    ensures r.Err? ==> e.disk == d && e.outcome.error == r.error
  {
    match r
    case Ok(d') => Effect(d', Pass)
    case Err(err) => Effect(d, Fail(err))
  }

  /** The file system as the daemon changes it, one call at a time. */
  class FileSystem {
    var dirs: set<Path>
    var files: map<Path, Content>

    function State(): Disk
      reads this
    {
      Disk(dirs, files)
    }

    predicate Valid()
      reads this
    {
      Consistent(State())
    }

    constructor (initial: Disk)
      requires Consistent(initial)
      ensures Valid() && State() == initial
    {
      dirs := initial.dirs;
      files := initial.files;
    }

    /** `Directory.Exists(path)`. */
    method DirectoryExists(path: Path) returns (b: bool)
      ensures b <==> path in State().dirs
    {
      b := path in dirs;
    }

    /** `File.Exists(path)`. */
    method FileExists(path: Path) returns (b: bool)
      ensures b <==> path in State().files
    {
      b := path in files;
    }

    method CreateDirectory(dir: Path) returns (r: Outcome)
      requires Valid()
      modifies this
      ensures Valid()
      ensures r.Pass? <==> CreateDirectoryOn(old(State()), dir).Ok?
      ensures r.Pass? ==> State() == CreateDirectoryOn(old(State()), dir).value
      ensures r.Fail? ==> State() == old(State()) && r.error == IoError
    {
      if dir == [] || dir in files {
        return Fail(IoError);
      }
      dirs := dirs + {dir};
      r := Pass;
    }

    method WriteXml(f: FilePath, root: Elem) returns (r: Outcome)
      requires Valid()
      modifies this
      ensures Valid()
      ensures r.Pass? <==> WriteXmlOn(old(State()), f, root).Ok?
      ensures r.Pass? ==> State() == WriteXmlOn(old(State()), f, root).value
      ensures r.Fail? ==> State() == old(State()) && r.error == IoError
    {
      var p := FullPath(f);
      if (f.dir != [] && f.dir !in dirs) || p in dirs {
        return Fail(IoError);
      }
      files := files[p := Xml(root)];
      r := Pass;
    }

    method LoadXml(path: Path) returns (r: Result<Elem>)
      ensures r == LoadXmlFrom(State(), path)
    {
      if path !in files {
        return Err(IoError);
      }
      match files[path]
      case Malformed => r := Err(ParseError);
      case Xml(root) => r := Ok(root);
    }
  }
}

=== FILE: models.dfy ===
/** The objects the settings daemon reads into and writes from. A channel's
    settings object is seen through its property table; the application
    settings are static state: one value per property and three string lists. */
module SettingsModels {
  import opened Documents
  import opened Coercion
  import opened SettingsRules
  import opened AppMapper

  /** An object handled by the generic path: the property table of its type
      and the current value of each property. */
  class ConfigObject {
    const schema: seq<Property>
    var values: seq<Value>

    predicate Valid()
      reads this
    {
      WellTyped(schema, values)
    }

    constructor (schema: seq<Property>, values: seq<Value>)
      requires WellTyped(schema, values)
      ensures Valid() && this.schema == schema && this.values == values
    {
      this.schema := schema;
      this.values := values;
    }

    /** `property.SetValue(this, v)` for the property at position `j`;
        reflection refuses a value of another type. */
    method SetValue(j: nat, v: Value)
      requires Valid() && j < |schema| && HasKind(v, schema[j].kind)
      modifies this
      ensures Valid()
      ensures values == old(values)[j := v]
    {
      values := values[j := v];
    }
  }

  /** The static application settings. */
  class ApplicationSettings {
    const schema: seq<AppProperty>
    var values: seq<Value>
    var savedChannels: seq<string>
    var interested: seq<string>
    var notInterested: seq<string>

    function State(): AppState
      reads this
    {
      AppState(values, savedChannels, interested, notInterested)
    }

    predicate Valid()
      reads this
    {
      AppWellTyped(schema, State())
    }

    constructor (schema: seq<AppProperty>, initial: AppState)
      requires AppWellTyped(schema, initial)
      ensures Valid() && this.schema == schema && State() == initial
    {
      this.schema := schema;
      values := initial.values;
      savedChannels := initial.savedChannels;
      interested := initial.interested;
      notInterested := initial.notInterested;
    }

    /** `property.SetValue(null, v)` for the scalar at position `j`;
        reflection refuses a value of another type. */
    method SetValue(j: nat, v: Value)
      requires Valid() && j < |schema| && schema[j].kind.Scalar? && HasKind(v, schema[j].kind.kind)
      modifies this
      ensures Valid()
      ensures State() == old(State()).(values := old(values)[j := v])
    {
      values := values[j := v];
    }

    /** `collection.Clear()` on one of the static lists. */
    method Clear(l: ListName)
      modifies this
      ensures State() == WithList(old(State()), l, [])
    {
      match l
      case SavedChannels => savedChannels := [];
      case Interested => interested := [];
      case NotInterested => notInterested := [];
    }

    /** `collection.Add(item)` on one of the static lists. */
    method Add(l: ListName, item: string)
      modifies this
      ensures State() == WithList(old(State()), l, ListOf(old(State()), l) + [item])
    {
      match l
      case SavedChannels => savedChannels := savedChannels + [item];
      case Interested => interested := interested + [item];
      case NotInterested => notInterested := notInterested + [item];
    }

    /** Clearing list `l` and adding the value of each of `items` in order:
        the list ends up holding exactly those values, whatever it held
        before, and nothing else changes. */
    method Refill(l: ListName, items: seq<Elem>)
      modifies this
      ensures State() == WithList(old(State()), l, ChildValues(items))
    {
      Clear(l);
      var i := 0;
      while i < |items|
        invariant i <= |items|
        invariant State() == WithList(old(State()), l, ChildValues(items[..i]))
      {
        Add(l, ElementValue(items[i]));
        assert ChildValues(items[..i + 1]) == ChildValues(items[..i]) + [ElementValue(items[i])];
        i := i + 1;
      }
      assert items[..i] == items;
    }
  }
}

=== FILE: moderator.dfy ===
/** Promotion and demotion of moderators: the message a promote/demote
    update reads as, and what the server command service does when the
    chat server announces a promotion or a demotion. */
module Moderator {
  import opened Wrappers

  /** The update raised for a promoted or demoted character. A missing
      `targetChannel` (null in the source) means a global moderator change. */
  datatype PromoteDemoteEventArgs = PromoteDemoteEventArgs(
    isPromote: bool, targetChannel: Option<string>, targetChannelId: Option<string>)

  function Verb(isPromote: bool): string
  {
    if isPromote then "promoted to" else "demoted from"
  }

  /** Whether the change is global or in a named channel. */
  function Scope(args: PromoteDemoteEventArgs): string
  {
    if args.targetChannel.None? then " global moderator."
    else " channel moderator in " + args.targetChannel.value + "."
  }

  /** `PromoteDemoteEventArgs.ToString`: the text shown after the
      character's name. */
  function Describe(args: PromoteDemoteEventArgs): (r: string)
    ensures |r| > 9 && r[..9] == "has been " && r[|r| - 1] == '.'
  {
    "has been " + Verb(args.isPromote) + Scope(args)
  }

  // The literal pieces of the text, joined one step at a time so that the
  // solver compares one pair of literals at a time.

  lemma JoinPromoted()
    ensures "has been " + "promoted to" == "has been promoted to"
  {
  }

  lemma JoinDemoted()
    ensures "has been " + "demoted from" == "has been demoted from"
  {
  }

  lemma JoinPromotedChannel()
    ensures "has been promoted to" + " channel moderator in " == "has been promoted to channel moderator in "
  {
  }

  lemma JoinDemotedChannel()
    ensures "has been demoted from" + " channel moderator in " == "has been demoted from channel moderator in "
  {
  }

  lemma JoinPromotedGlobal()
    ensures "has been promoted to" + " global moderator." == "has been promoted to global moderator."
  {
  }

  lemma JoinDemotedGlobal()
    ensures "has been demoted from" + " global moderator." == "has been demoted from global moderator."
  {
  }

  /** A global promotion reads exactly "has been promoted to global
      moderator.". */
  lemma GlobalPromoteText(a: PromoteDemoteEventArgs)
    requires a.targetChannel.None? && a.isPromote
    ensures Describe(a) == "has been promoted to global moderator."
  {
    assert Describe(a) == "has been " + "promoted to" + " global moderator.";
    JoinPromoted();
    JoinPromotedGlobal();
  }

  /** A global demotion reads exactly "has been demoted from global
      moderator.". */
  lemma GlobalDemoteText(a: PromoteDemoteEventArgs)
    requires a.targetChannel.None? && !a.isPromote
    ensures Describe(a) == "has been demoted from global moderator."
  {
    assert Describe(a) == "has been " + "demoted from" + " global moderator.";
    JoinDemoted();
    JoinDemotedGlobal();
  }

  /** A channel promotion reads exactly "has been promoted to channel
      moderator in " followed by the channel and a full stop. */
  lemma ChannelPromoteText(a: PromoteDemoteEventArgs, c: string)
    requires a.targetChannel == Some(c) && a.isPromote
    ensures Describe(a) == "has been promoted to channel moderator in " + c + "."
  {
    var tail := " channel moderator in " + c + ".";
    assert Describe(a) == "has been " + "promoted to" + tail;
    JoinPromoted();
    JoinPromotedChannel();
    assert "has been promoted to" + tail == "has been promoted to" + " channel moderator in " + c + ".";
  }

  /** A channel demotion reads exactly "has been demoted from channel
      moderator in " followed by the channel and a full stop. */
  lemma ChannelDemoteText(a: PromoteDemoteEventArgs, c: string)
    requires a.targetChannel == Some(c) && !a.isPromote
    ensures Describe(a) == "has been demoted from channel moderator in " + c + "."
  {
    var tail := " channel moderator in " + c + ".";
    assert Describe(a) == "has been " + "demoted from" + tail;
    JoinDemoted();
    JoinDemotedChannel();
    assert "has been demoted from" + tail == "has been demoted from" + " channel moderator in " + c + ".";
  }

  lemma ScopeStart(a: PromoteDemoteEventArgs)
    ensures |Scope(a)| > 1 && Scope(a)[1] == (if a.targetChannel.Some? then 'c' else 'g')
  {
  }

  /** The text tells promotion from demotion, a global change from a
      channel one, and names the channel: two updates that read the same
      agree on all three. */
  lemma DescribeInjective(a: PromoteDemoteEventArgs, b: PromoteDemoteEventArgs)
    requires Describe(a) == Describe(b)
    ensures a.isPromote == b.isPromote && a.targetChannel == b.targetChannel
  {
    var r := Describe(a);
    var va, vb := Verb(a.isPromote), Verb(b.isPromote);
    assert r[9] == va[0];
    assert r[9] == vb[0];
    assert a.isPromote == b.isPromote;
    ScopeStart(a);
    ScopeStart(b);
    var n := 9 + |va|;
    assert r[n..] == Scope(a) && r[n..] == Scope(b);
    if a.targetChannel.Some? {
      var sa := Scope(a);
      assert sa == " channel moderator in " + a.targetChannel.value + ".";
      assert sa == " channel moderator in " + b.targetChannel.value + ".";
      assert a.targetChannel.value == sa[22..|sa| - 1];
    }
  }

  /** A channel as the service sees it: its id, its title and the names on
      its moderator list. */
  datatype Channel = Channel(id: string, title: string, moderators: set<string>)

  /** An update raised for a character. */
  datatype CharacterUpdate = CharacterUpdate(character: string, args: PromoteDemoteEventArgs)

  /** The joined channels, the characters known to the client, and the
      updates raised so far. */
  datatype ServiceState = ServiceState(channels: seq<Channel>, characters: set<string>, events: seq<CharacterUpdate>)

  /** `FirstByIdOrNull`: the position of the first channel with id `id`. */
  function FindChannel(channels: seq<Channel>, id: string): (r: Option<nat>)
    ensures r.Some? ==>
      r.value < |channels| && channels[r.value].id == id && (forall k :: 0 <= k < r.value ==> channels[k].id != id)
    ensures r.None? ==> forall k :: 0 <= k < |channels| ==> channels[k].id != id
    decreases |channels|
  {
    if channels == [] then None
    else if channels[0].id == id then Some(0)
    else match FindChannel(channels[1..], id)
      case None => None
      case Some(k) => Some(k + 1)
  }

  /** Channel `c` with `character` added to or removed from its moderators. */
  function WithModerator(c: Channel, character: string, isPromote: bool): (r: Channel)
    ensures r.id == c.id && r.title == c.title
    ensures character in r.moderators <==> isPromote
    ensures forall other :: other != character ==> (other in r.moderators <==> other in c.moderators)
  {
    c.(moderators := if isPromote then c.moderators + {character} else c.moderators - {character})
  }

  /** What `PromoteOrDemote` does: the channel the id names, if any, has its
      moderator list changed; an update is raised only for a known
      character, naming the channel's title when the id was found. */
  function PromoteOrDemoteEffect(s: ServiceState, character: string, isPromote: bool, channelId: Option<string>): (r: ServiceState)
    ensures r.characters == s.characters && |r.channels| == |s.channels|
    ensures forall k :: 0 <= k < |s.channels| ==>
      r.channels[k].id == s.channels[k].id && r.channels[k].title == s.channels[k].title
    ensures |r.events| == |s.events| + (if character in s.characters then 1 else 0)
    ensures r.events[..|s.events|] == s.events
    ensures character in s.characters ==>
      var u := r.events[|s.events|];
      u.character == character && u.args.isPromote == isPromote && u.args.targetChannelId == channelId
  {
    var found := if channelId.None? then None else FindChannel(s.channels, channelId.value);
    var channels := if found.None? then s.channels
                    else s.channels[found.value := WithModerator(s.channels[found.value], character, isPromote)];
    var title := if found.None? then None else Some(s.channels[found.value].title);
    var events := if character in s.characters
                  then s.events + [CharacterUpdate(character, PromoteDemoteEventArgs(isPromote, title, channelId))]
                  else s.events;
    ServiceState(channels, s.characters, events)
  }

  /** With no channel id no channel changes, and the update raised, if any,
      reads as a global moderator change. */
  lemma NoChannelIdIsGlobal(s: ServiceState, character: string, isPromote: bool)
    ensures var r := PromoteOrDemoteEffect(s, character, isPromote, None);
      r.channels == s.channels && r.characters == s.characters
      && forall k :: |s.events| <= k < |r.events| ==>
           r.events[k].args.targetChannel.None?
           && Describe(r.events[k].args) == "has been " + Verb(isPromote) + " global moderator."
  {
  }

  /** When the id names a channel, promotion puts the character on that
      channel's moderator list and demotion takes it off, whether or not
      the character is known; no other channel changes. */
  lemma ResolvedChannelChanged(s: ServiceState, character: string, isPromote: bool, id: string, k: nat)
    requires FindChannel(s.channels, id) == Some(k)
    ensures var r := PromoteOrDemoteEffect(s, character, isPromote, Some(id));
      |r.channels| == |s.channels|
      && (character in r.channels[k].moderators <==> isPromote)
      && r.channels[k].id == id && r.channels[k].title == s.channels[k].title
      && forall m :: 0 <= m < |s.channels| && m != k ==> r.channels[m] == s.channels[m]
  {
  }

  /** No update is raised for a character the client does not know, and
      the known characters never change. */
  lemma UnknownCharacterNoEvent(s: ServiceState, character: string, isPromote: bool, channelId: Option<string>)
    requires character !in s.characters
    ensures var r := PromoteOrDemoteEffect(s, character, isPromote, channelId);
      r.events == s.events && r.characters == s.characters
  {
  }

  /** For a known character and an id that names a channel, exactly one
      update is raised; it names the channel's title and reads as a channel
      moderator change in it. */
  lemma KnownCharacterChannelEvent(s: ServiceState, character: string, isPromote: bool, id: string, k: nat)
    requires character in s.characters && FindChannel(s.channels, id) == Some(k)
    ensures var r := PromoteOrDemoteEffect(s, character, isPromote, Some(id));
      var title := s.channels[k].title;
      r.events == s.events + [CharacterUpdate(character, PromoteDemoteEventArgs(isPromote, Some(title), Some(id)))]
      && Describe(r.events[|s.events|].args) == "has been " + Verb(isPromote) + " channel moderator in " + title + "."
  {
  }

  /** An id that names no joined channel changes no channel, whether or not
      the character is known; for a known character the update keeps the id
      but reads as a global moderator change. */
  lemma UnknownChannelIdReadsGlobal(s: ServiceState, character: string, isPromote: bool, id: string)
    requires FindChannel(s.channels, id).None?
    ensures var r := PromoteOrDemoteEffect(s, character, isPromote, Some(id));
      r.channels == s.channels
      && (character in s.characters ==>
            r.events == s.events + [CharacterUpdate(character, PromoteDemoteEventArgs(isPromote, None, Some(id)))])
  {
  }

  /** The argument names of the promote and demote server commands. */
  const CharacterKey: string := "character"
  const ChannelKey: string := "channel"

  /** The channel id a command carries, if it has the channel argument. */
  function ChannelArgument(command: map<string, string>): (r: Option<string>)
    ensures r.Some? <==> ChannelKey in command
    ensures r.Some? ==> r.value == command[ChannelKey]
  {
    if ChannelKey in command then Some(command[ChannelKey]) else None
  }

  /** The part of the server command service that handles moderator changes. */
  class ServerCommandService {
    var channels: seq<Channel>
    var characters: set<string>
    var events: seq<CharacterUpdate>

    function State(): ServiceState
      reads this
    {
      ServiceState(channels, characters, events)
    }

    constructor (initial: ServiceState)
      ensures State() == initial
    {
      channels := initial.channels;
      characters := initial.characters;
      events := initial.events;
    }

    method PromoteOrDemote(character: string, isPromote: bool, channelId: Option<string>)
      modifies this
      ensures State() == PromoteOrDemoteEffect(old(State()), character, isPromote, channelId)
    {
      var target := character in characters;
      var title: Option<string> := None;
      if channelId.Some? {
        var channel := FindChannel(channels, channelId.value);
        if channel.Some? {
          var k := channel.value;
          title := Some(channels[k].title);
          if isPromote {
            channels := channels[k := channels[k].(moderators := channels[k].moderators + {character})];
          } else {
            channels := channels[k := channels[k].(moderators := channels[k].moderators - {character})];
          }
        }
      }
      if !target {
        return;
      }
      var updateArgs := PromoteDemoteEventArgs(isPromote, title, channelId);
      events := events + [CharacterUpdate(character, updateArgs)];
    }

    method OperatorPromoteCommand(command: map<string, string>)
      requires CharacterKey in command
      modifies this
      ensures State() == PromoteOrDemoteEffect(old(State()), command[CharacterKey], true, ChannelArgument(command))
    {
      var target := command[CharacterKey];
      var channelId: Option<string> := None;
      if ChannelKey in command {
        channelId := Some(command[ChannelKey]);
      }
      PromoteOrDemote(target, true, channelId);
    }

    method OperatorDemoteCommand(command: map<string, string>)
      requires CharacterKey in command
      modifies this
      ensures State() == PromoteOrDemoteEffect(old(State()), command[CharacterKey], false, ChannelArgument(command))
    {
      var target := command[CharacterKey];
      var channelId: Option<string> := None;
      if ChannelKey in command {
        channelId := Some(command[ChannelKey]);
      }
      PromoteOrDemote(target, false, channelId);
    }
  }
}

=== FILE: object_mapper.dfy ===
/** What the generic path of the settings daemon does to documents, as
    functions: the document `SerializeObjectToXML` writes for an object, and
    the assignments `ReadObjectFromXML` makes when it walks a document. An
    object is its type's property table together with one value per property. */
module ObjectMapper {
  import opened Wrappers
  import opened Documents
  import opened Coercion
  import opened SettingsRules

  // ---------------------------------------------------------------------------
  // Writing

  /** The children of the root `SerializeObjectToXML` builds: one leaf per
      property that is not excluded, in property order. */
  function ObjectChildren(schema: seq<Property>, values: seq<Value>): (r: seq<Elem>)
    requires |values| == |schema|
    ensures |r| <= |schema|
    ensures forall k :: 0 <= k < |r| ==> r[k].children == [] && !IsExcluded(r[k].name)
    decreases |schema|
  {
    if schema == [] then []
    else
      var n := |schema| - 1;
      ObjectChildren(schema[..n], values[..n])
        + (if IsExcluded(schema[n].name) then [] else [Leaf(schema[n].name, ToText(values[n]))])
  }

  /** The document `SerializeObjectToXML` writes. */
  function ObjectDocument(schema: seq<Property>, values: seq<Value>): (r: Elem)
    requires |values| == |schema|
    ensures r.name == "settings"
    ensures Descendants(r) == r.children
  {
    var children := ObjectChildren(schema, values);
    DescendantsOfLeaves(children);
    Elem("settings", "", children)
  }

  /** The positions of the properties the serializer keeps, in increasing order. */
  function KeptIndices(schema: seq<Property>): (r: seq<nat>)
    ensures forall k :: 0 <= k < |r| ==> r[k] < |schema| && !IsExcluded(schema[r[k]].name)
    ensures forall k, l :: 0 <= k < l < |r| ==> r[k] < r[l]
    ensures forall i :: 0 <= i < |schema| && !IsExcluded(schema[i].name) ==> i in r
    decreases |schema|
  {
    if schema == [] then []
    else
      var n := |schema| - 1;
      KeptIndices(schema[..n]) + (if IsExcluded(schema[n].name) then [] else [n])
  }

  /** The serialized root is named "settings" and holds, in property order,
      exactly one leaf per property whose name contains none of the excluded
      terms: the property's name and the text of its value. */
  lemma {:induction false} ObjectDocumentShape(schema: seq<Property>, values: seq<Value>)
    requires |values| == |schema|
    ensures ObjectDocument(schema, values).name == "settings"
    ensures var cs := ObjectDocument(schema, values).children;
      var ks := KeptIndices(schema);
      |cs| == |ks| &&
      forall k :: 0 <= k < |cs| ==> cs[k] == Leaf(schema[ks[k]].name, ToText(values[ks[k]]))
    decreases |schema|
  {
    if schema != [] {
      var n := |schema| - 1;
      ObjectDocumentShape(schema[..n], values[..n]);
    }
  }

  /** No element the serializer writes is named after an excluded property:
      `IsPromote` or `SomeCommand` never appear. */
  lemma ExcludedNeverWritten(schema: seq<Property>, values: seq<Value>, c: Elem)
    requires |values| == |schema|
    requires c in ObjectDocument(schema, values).children
    ensures !IsExcluded(c.name) && c.children == []
  {
    ObjectDocumentShape(schema, values);
  }

  lemma {:induction false} ObjectChildrenAreLeaves(schema: seq<Property>, values: seq<Value>)
    requires |values| == |schema|
    ensures forall i :: 0 <= i < |ObjectChildren(schema, values)| ==> ObjectChildren(schema, values)[i].children == []
    ensures Descendants(ObjectDocument(schema, values)) == ObjectChildren(schema, values)
  {
    ObjectDocumentShape(schema, values);
    DescendantsOfLeaves(ObjectChildren(schema, values));
  }

  // ---------------------------------------------------------------------------
  // Reading

  /** The position of the first property called `name` (ordinal comparison),
      or `|schema|` when there is none: the property the inner loop of
      `ReadObjectFromXML` stops at. */
  function FirstMatch(schema: seq<Property>, name: string): (r: nat)
    ensures r <= |schema|
    ensures r < |schema| ==> schema[r].name == name
    ensures forall j :: 0 <= j < r ==> schema[j].name != name
    decreases |schema|
  {
    if schema == [] then 0
    else if schema[0].name == name then 0
    else 1 + FirstMatch(schema[1..], name)
  }

  /** What `ReadObjectFromXML` does with one element: an element named after
      no property changes nothing; otherwise its value is converted to the
      first matching property's type and assigned to it, and a failed
      conversion throws. */
  function AssignElement(schema: seq<Property>, values: seq<Value>, e: Elem): (r: Result<seq<Value>>)
    requires |values| == |schema|
    ensures r.Err? <==> FirstMatch(schema, e.name) < |schema|
                        && Coerce(ElementValue(e), schema[FirstMatch(schema, e.name)].kind).None?
    ensures r.Err? ==> r.error == CoercionError
    ensures r.Ok? ==> |r.value| == |schema|
    ensures r.Ok? ==> forall i :: 0 <= i < |schema| && i != FirstMatch(schema, e.name) ==> r.value[i] == values[i]
    ensures r.Ok? && FirstMatch(schema, e.name) < |schema| ==>
      Coerce(ElementValue(e), schema[FirstMatch(schema, e.name)].kind) == Some(r.value[FirstMatch(schema, e.name)])
    ensures r.Ok? && WellTyped(schema, values) ==> WellTyped(schema, r.value)
  {
    var j := FirstMatch(schema, e.name);
    if j == |schema| then Ok(values)
    else match Coerce(ElementValue(e), schema[j].kind)
      case None => Err(CoercionError)
      case Some(v) => Ok(values[j := v])
  }

  /** The state of the object after a walk, and the exception that ended it. */
  datatype Run = Run(values: seq<Value>, error: Option<Error>)

  /** Assigning the elements in order. The first failure ends the walk; the
      assignments made before it stay in place. */
  function ReadObjectRun(schema: seq<Property>, values: seq<Value>, elems: seq<Elem>): (r: Run)
    requires |values| == |schema|
    ensures |r.values| == |schema|
    ensures WellTyped(schema, values) ==> WellTyped(schema, r.values)
    decreases |elems|
  {
    if elems == [] then Run(values, None)
    else match AssignElement(schema, values, elems[0])
      case Err(e) => Run(values, Some(e))
      case Ok(vs) => ReadObjectRun(schema, vs, elems[1..])
  }

  /** Walking `a + b` is walking `a` and then, unless `a` failed, walking `b`
      from where `a` left the object: nothing is rolled back. */
  lemma {:induction false} ReadObjectRunAppend(schema: seq<Property>, values: seq<Value>, a: seq<Elem>, b: seq<Elem>)
    requires |values| == |schema|
    ensures var ra := ReadObjectRun(schema, values, a);
      ReadObjectRun(schema, values, a + b) ==
        if ra.error.Some? then ra else ReadObjectRun(schema, ra.values, b)
    decreases |a|
  {
    if a == [] {
      assert a + b == b;
    } else {
      assert (a + b)[0] == a[0];
      assert (a + b)[1..] == a[1..] + b;
      match AssignElement(schema, values, a[0])
      case Err(_) =>
      case Ok(vs) => ReadObjectRunAppend(schema, vs, a[1..], b);
    }
  }

  /** A property that is not the first match of any element's name keeps its
      value: elements named after no property change nothing, and a second
      property with the same name as an earlier one is never assigned. */
  lemma {:induction false} OnlyFirstMatchAssigned(schema: seq<Property>, values: seq<Value>, elems: seq<Elem>, j: nat)
    requires |values| == |schema| && j < |schema|
    requires forall k :: 0 <= k < |elems| ==> FirstMatch(schema, elems[k].name) != j
    ensures ReadObjectRun(schema, values, elems).values[j] == values[j]
    decreases |elems|
  {
    if elems != [] {
      match AssignElement(schema, values, elems[0])
      case Err(_) =>
      case Ok(vs) =>
        assert vs[j] == values[j];
        OnlyFirstMatchAssigned(schema, vs, elems[1..], j);
    }
  }

  /** A walk over elements none of which is named after a property succeeds
      and leaves the object as it was. */
  lemma {:induction false} UnmatchedElementsIgnored(schema: seq<Property>, values: seq<Value>, elems: seq<Elem>)
    requires |values| == |schema|
    requires forall k :: 0 <= k < |elems| ==> FirstMatch(schema, elems[k].name) == |schema|
    ensures ReadObjectRun(schema, values, elems) == Run(values, None)
    decreases |elems|
  {
    if elems != [] {
      UnmatchedElementsIgnored(schema, values, elems[1..]);
    }
  }

  // ---------------------------------------------------------------------------
  // Writing then reading

  predicate UniqueNames(schema: seq<Property>)
  {
    forall i, j :: 0 <= i < j < |schema| ==> schema[i].name != schema[j].name
  }

  /** The written properties hold scalars (a string collection is written as
      the concatenation of its items and cannot be read back). */
  predicate KeptAreScalars(schema: seq<Property>)
  {
    forall i :: 0 <= i < |schema| && !IsExcluded(schema[i].name) ==> schema[i].kind != StringsKind
  }

  /** `base` with the values of the first `k` written properties replaced by
      those of `values`. */
  function Overlay(schema: seq<Property>, base: seq<Value>, values: seq<Value>, k: nat): (r: seq<Value>)
    requires |base| == |schema| && |values| == |schema|
    ensures |r| == |schema|
  {
    seq(|schema|, i requires 0 <= i < |schema| =>
      if i < k && !IsExcluded(schema[i].name) then values[i] else base[i])
  }

  lemma UniqueFirstMatch(schema: seq<Property>, i: nat)
    requires UniqueNames(schema) && i < |schema|
    ensures FirstMatch(schema, schema[i].name) == i
  {
  }

  /** Reading back the leaf written for property `n` assigns the property's
      own value to it. */
  lemma ReadWrittenLeaf(schema: seq<Property>, current: seq<Value>, values: seq<Value>, n: nat)
    requires WellTyped(schema, values) && |current| == |schema|
    requires UniqueNames(schema) && n < |schema| && schema[n].kind != StringsKind
    ensures AssignElement(schema, current, Leaf(schema[n].name, ToText(values[n]))) == Ok(current[n := values[n]])
  {
    var leaf := Leaf(schema[n].name, ToText(values[n]));
    UniqueFirstMatch(schema, n);
    assert ElementValue(leaf) == ToText(values[n]);
    CoerceRoundTrip(values[n], schema[n].kind);
  }

  lemma OverlayStep(schema: seq<Property>, base: seq<Value>, values: seq<Value>, n: nat)
    requires |base| == |schema| && |values| == |schema| && n < |schema|
    ensures Overlay(schema, base, values, n + 1) ==
      if IsExcluded(schema[n].name) then Overlay(schema, base, values, n)
      else Overlay(schema, base, values, n)[n := values[n]]
  {
  }

  lemma {:induction false} RoundTripPrefix(schema: seq<Property>, base: seq<Value>, values: seq<Value>, k: nat)
    requires WellTyped(schema, base) && WellTyped(schema, values)
    requires UniqueNames(schema) && KeptAreScalars(schema)
    requires k <= |schema|
    ensures ReadObjectRun(schema, base, ObjectChildren(schema[..k], values[..k]))
      == Run(Overlay(schema, base, values, k), None)
    decreases k
  {
    if k == 0 {
      assert Overlay(schema, base, values, 0) == base;
    } else {
      var n := k - 1;
      assert schema[..k][..n] == schema[..n];
      assert values[..k][..n] == values[..n];
      var prefix := ObjectChildren(schema[..n], values[..n]);
      var extra := if IsExcluded(schema[n].name) then [] else [Leaf(schema[n].name, ToText(values[n]))];
      assert ObjectChildren(schema[..k], values[..k]) == prefix + extra;
      RoundTripPrefix(schema, base, values, n);
      ReadObjectRunAppend(schema, base, prefix, extra);
      OverlayStep(schema, base, values, n);
      if !IsExcluded(schema[n].name) {
        ReadWrittenLeaf(schema, Overlay(schema, base, values, n), values, n);
      }
    }
  }

  /** Serializing an object and reading the document back into `base` gives
      `base` with every written property set to the object's value, and no
      failure — provided property names are unique and the written
      properties are scalars. Excluded properties keep `base`'s values. */
  lemma ObjectRoundTrip(schema: seq<Property>, base: seq<Value>, values: seq<Value>)
    requires WellTyped(schema, base) && WellTyped(schema, values)
    requires UniqueNames(schema) && KeptAreScalars(schema)
    ensures ReadObjectRun(schema, base, Descendants(ObjectDocument(schema, values)))
      == Run(Overlay(schema, base, values, |schema|), None)
  {
    ObjectChildrenAreLeaves(schema, values);
    RoundTripPrefix(schema, base, values, |schema|);
    assert schema[..|schema|] == schema && values[..|schema|] == values;
  }
}

=== FILE: settings_rules.dfy ===
/** The name-based rules of the settings daemon: which properties the generic
    serializer skips, which collections the global saver skips, how it labels
    collection items, and which in-memory list the global reader refills. */
module SettingsRules {
  import opened Text

  /** The terms that keep a property out of the generic serializer. */
  const CheckTerms: seq<string> := ["command", "is", "enumerable"]

  /** The property's lower-cased name contains one of `CheckTerms`. */
  predicate IsExcluded(name: string): (r: bool)
    ensures r <==> Contains(Lower(name), "command") || Contains(Lower(name), "is")
                   || Contains(Lower(name), "enumerable")
  {
    assert CheckTerms[0] == "command" && CheckTerms[1] == "is" && CheckTerms[2] == "enumerable";
    exists i :: 0 <= i < |CheckTerms| && Contains(Lower(name), CheckTerms[i])
  }

  /** A property is excluded exactly when one of `CheckTerms` occurs, ignoring
      ASCII case, at some position of its name. */
  lemma ExcludedOccurs(name: string)
    ensures IsExcluded(name) <==> exists t, k: nat :: t in CheckTerms && OccursAt(Lower(name), t, k)
  {
    forall t | t in CheckTerms
      ensures Contains(Lower(name), t) <==> exists k: nat :: OccursAt(Lower(name), t, k)
    {
      ContainsOccurs(Lower(name), t);
    }
  }

  /** A string collection whose lower-cased name contains "list" is not
      written by the global saver. */
  predicate IsListLike(name: string)
  {
    Contains(Lower(name), "list")
  }

  /** A collection is list-like exactly when "list" occurs, ignoring ASCII
      case, at some position of its name. */
  lemma ListLikeOccurs(name: string)
    ensures IsListLike(name) <==> exists k: nat :: OccursAt(Lower(name), "list", k)
  {
    ContainsOccurs(Lower(name), "list");
  }

  /** The name every item element of a saved collection gets. */
  function ChildLabel(name: string): (r: string)
    ensures r in {"channel", "character", "item"}
    ensures r == "channel" <==> Contains(Lower(name), "channel")
    ensures r == "character" <==> !Contains(Lower(name), "channel") && Contains(Lower(name), "interested")
  {
    if Contains(Lower(name), "channel") then "channel"
    else if Contains(Lower(name), "interested") then "character"
    else "item"
  }

  /** The static string lists of the application settings. */
  datatype ListName = SavedChannels | Interested | NotInterested

  /** The list the global reader clears and refills for a collection element
      matched by the property called `name`. */
  function CollectionTarget(name: string): (r: ListName)
    ensures r == Interested <==> EqualsIgnoreCase(name, "interested")
    ensures r == NotInterested <==> EqualsIgnoreCase(name, "notinterested")
  {
    if EqualsIgnoreCase(name, "interested") then Interested
    else if EqualsIgnoreCase(name, "notinterested") then NotInterested
    else SavedChannels
  }

  // Concrete names. Each lower-casing and each search is its own small lemma,
  // so that the solver evaluates one literal at a time.

  lemma LowerIsPromote() ensures Lower("IsPromote") == "ispromote" {}
  lemma LowerSomeCommand() ensures Lower("SomeCommand") == "somecommand" {}
  lemma LowerEnumerableThing() ensures Lower("EnumerableThing") == "enumerablething" {}
  lemma LowerShouldDisplay() ensures Lower("ShouldDisplay") == "shoulddisplay" {}
  lemma LowerTitle() ensures Lower("Title") == "title" {}
  lemma LowerInterested() ensures Lower("Interested") == "interested" {}
  lemma LowerNotInterested() ensures Lower("NotInterested") == "notinterested" {}
  lemma LowerSavedChannels() ensures Lower("SavedChannels") == "savedchannels" {}

  lemma SearchIsPromote() ensures Contains("ispromote", "is")
  {
    ContainsAt("ispromote", "is", 0);
  }
  lemma SearchSomeCommand() ensures Contains("somecommand", "command")
  {
    ContainsAt("somecommand", "command", 4);
  }
  lemma SearchEnumerableThing() ensures Contains("enumerablething", "enumerable")
  {
    ContainsAt("enumerablething", "enumerable", 0);
  }
  lemma SearchShouldDisplay() ensures Contains("shoulddisplay", "is")
  {
    ContainsAt("shoulddisplay", "is", 7);
  }
  lemma SearchTitle()
    ensures !Contains("title", "command") && !Contains("title", "is") && !Contains("title", "enumerable")
  {}
  lemma SearchSavedChannels() ensures Contains("savedchannels", "channel")
  {
    ContainsAt("savedchannels", "channel", 5);
  }
  lemma InterestedNoChannel() ensures !Contains("interested", "channel")
  {
    NotContainsFirstChar("interested", "channel");
  }
  lemma InterestedHasInterested() ensures Contains("interested", "interested")
  {
    ContainsAt("interested", "interested", 0);
  }
  lemma NotInterestedNoChannel() ensures !Contains("notinterested", "channel")
  {
    NotContainsFirstChar("notinterested", "channel");
  }
  lemma NotInterestedHasInterested() ensures Contains("notinterested", "interested")
  {
    ContainsAt("notinterested", "interested", 3);
  }
  lemma InterestedNoList() ensures !Contains("interested", "list")
  {
    NotContainsFirstChar("interested", "list");
  }
  lemma NotInterestedNoList() ensures !Contains("notinterested", "list")
  {
    NotContainsFirstChar("notinterested", "list");
  }

  /** The two character lists of the application settings are not
      list-like, so the global saver writes them. */
  lemma CharacterListsWritten()
    ensures !IsListLike("Interested") && !IsListLike("NotInterested")
  {
    LowerInterested();
    LowerNotInterested();
    InterestedNoList();
    NotInterestedNoList();
  }

  /** Three property names the generic serializer never writes, and one it
      skips only because "display" contains "is". */
  lemma ExclusionExamples()
    ensures IsExcluded("IsPromote") && IsExcluded("SomeCommand") && IsExcluded("EnumerableThing")
    ensures IsExcluded("ShouldDisplay")
  {
    LowerIsPromote();
    LowerSomeCommand();
    LowerEnumerableThing();
    LowerShouldDisplay();
    SearchIsPromote();
    SearchSomeCommand();
    SearchEnumerableThing();
    SearchShouldDisplay();
    assert CheckTerms[0] == "command" && CheckTerms[1] == "is" && CheckTerms[2] == "enumerable";
  }

  /** A name without any of the terms is written. */
  lemma TitleKept()
    ensures !IsExcluded("Title")
  {
    LowerTitle();
    SearchTitle();
    assert CheckTerms[0] == "command" && CheckTerms[1] == "is" && CheckTerms[2] == "enumerable";
  }

  /** `NotInterested` contains "interested", so its items are labelled
      "character" as `Interested`'s are; saved channels are labelled "channel". */
  lemma LabelExamples()
    ensures ChildLabel("Interested") == "character"
    ensures ChildLabel("NotInterested") == "character"
    ensures ChildLabel("SavedChannels") == "channel"
  {
    LowerInterested();
    LowerNotInterested();
    LowerSavedChannels();
    SearchSavedChannels();
    InterestedNoChannel();
    InterestedHasInterested();
    NotInterestedNoChannel();
    NotInterestedHasInterested();
  }

  /** The global reader refills the list named after the property, and
      `SavedChannels` for any other collection. */
  lemma TargetExamples()
    ensures CollectionTarget("Interested") == Interested
    ensures CollectionTarget("NotInterested") == NotInterested
    ensures CollectionTarget("SavedChannels") == SavedChannels
    ensures CollectionTarget("Friends") == SavedChannels
  {
    LowerInterested();
    LowerNotInterested();
    LowerSavedChannels();
    assert Lower("interested") == "interested";
    assert Lower("notinterested") == "notinterested";
    assert Lower("Friends") == "friends";
  }
}

=== FILE: text.dfy ===
/** The string primitives the settings code relies on: `ToLower`, `Contains`,
    ordinal case-insensitive comparison, `string.IsNullOrWhiteSpace` and string
    concatenation. Case mapping is the ASCII one: the invariant culture's for
    the letters A to Z. A culture with other rules (the Turkish dotted and
    dotless i, say) lower-cases some names differently. */
module Text {

  function LowerChar(c: char): char
  {
    if 'A' <= c <= 'Z' then (c as int + 32) as char else c
  }

  /** `s.ToLower()`. */
  function Lower(s: string): string
  {
    seq(|s|, i requires 0 <= i < |s| => LowerChar(s[i]))
  }

  /** `s.StartsWith(p)`, compared character by character. */
  predicate StartsWith(s: string, p: string)
  {
    p == [] || (s != [] && s[0] == p[0] && StartsWith(s[1..], p[1..]))
  }

  /** `s.Contains(sub)`: `sub` occurs in `s` at some position. */
  predicate Contains(s: string, sub: string)
  {
    StartsWith(s, sub) || (s != [] && Contains(s[1..], sub))
  }

  lemma {:induction false} StartsWithPrefix(s: string, p: string)
    requires |p| <= |s| && s[..|p|] == p
    ensures StartsWith(s, p)
  {
    if p != [] {
      assert s[0] == p[0];
      assert s[1..][..|p| - 1] == p[1..];
      StartsWithPrefix(s[1..], p[1..]);
    }
  }

  /** `sub` found at position `k` of `s` means `s` contains it. */
  lemma {:induction false} ContainsAt(s: string, sub: string, k: nat)
    requires k + |sub| <= |s| && s[k..k + |sub|] == sub
    ensures Contains(s, sub)
  {
    if k > 0 {
      assert s[1..][k - 1..k - 1 + |sub|] == sub;
      ContainsAt(s[1..], sub, k - 1);
    } else {
      StartsWithPrefix(s, sub);
    }
  }

  /** `s` starting with `p` means `p` is the first `|p|` characters of `s`. */
  lemma {:induction false} StartsWithIsPrefix(s: string, p: string)
    requires StartsWith(s, p)
    ensures |p| <= |s| && s[..|p|] == p
  {
    if p != [] {
      StartsWithIsPrefix(s[1..], p[1..]);
      assert s[..|p|] == [s[0]] + s[1..][..|p| - 1];
    }
  }

  /** `sub` occurs in `s` starting at position `k`. */
  predicate OccursAt(s: string, sub: string, k: nat)
  {
    k + |sub| <= |s| && s[k..k + |sub|] == sub
  }

  /** `Contains` holds exactly when `sub` occurs at some position of `s`. */
  lemma {:induction false} ContainsOccurs(s: string, sub: string)
    ensures Contains(s, sub) <==> exists k: nat :: OccursAt(s, sub, k)
  {
    if Contains(s, sub) {
      if StartsWith(s, sub) {
        StartsWithIsPrefix(s, sub);
        assert OccursAt(s, sub, 0);
      } else {
        ContainsOccurs(s[1..], sub);
        var k: nat :| OccursAt(s[1..], sub, k);
        assert s[k + 1..k + 1 + |sub|] == s[1..][k..k + |sub|];
        assert OccursAt(s, sub, k + 1);
      }
    }
    if exists k: nat :: OccursAt(s, sub, k) {
      var k: nat :| OccursAt(s, sub, k);
      ContainsAt(s, sub, k);
    }
  }

  /** A string in which the first character of `sub` never occurs does not
      contain `sub`. */
  lemma {:induction false} NotContainsFirstChar(s: string, sub: string)
    requires sub != [] && forall k :: 0 <= k < |s| ==> s[k] != sub[0]
    ensures !Contains(s, sub)
  {
    if s != [] {
      NotContainsFirstChar(s[1..], sub);
    }
  }

  /** `string.Equals(a, b, StringComparison.OrdinalIgnoreCase)`. */
  predicate EqualsIgnoreCase(a: string, b: string)
  {
    Lower(a) == Lower(b)
  }

  /** `char.IsWhiteSpace`: the Unicode separators and the control characters
      U+0009 to U+000D, U+0085. */
  predicate IsWhiteSpace(c: char)
  {
    c == ' ' || ('\t' <= c <= '\r') || c == '\U{0085}' || c == '\U{00A0}'
    || c == '\U{1680}' || ('\U{2000}' <= c <= '\U{200A}') || c == '\U{2028}'
    || c == '\U{2029}' || c == '\U{202F}' || c == '\U{205F}' || c == '\U{3000}'
  }

  /** `string.IsNullOrWhiteSpace` (an XML element's value is never null). */
  predicate IsNullOrWhiteSpace(s: string)
  {
    forall i :: 0 <= i < |s| ==> IsWhiteSpace(s[i])
  }

  /** Concatenation of a sequence of strings, as `XElement.Value` joins the
      text of an element's children. */
  function Concat(ss: seq<string>): string
  {
    if ss == [] then "" else ss[0] + Concat(ss[1..])
  }

  lemma {:induction false} ConcatBlankItems(ss: seq<string>)
    ensures IsNullOrWhiteSpace(Concat(ss)) <==> forall i :: 0 <= i < |ss| ==> IsNullOrWhiteSpace(ss[i])
  {
    if ss != [] {
      ConcatBlankItems(ss[1..]);
      var c := Concat(ss);
      assert c == ss[0] + Concat(ss[1..]);
      if IsNullOrWhiteSpace(c) {
        forall i | 0 <= i < |ss| ensures IsNullOrWhiteSpace(ss[i]) {
          if i == 0 {
            assert forall k :: 0 <= k < |ss[0]| ==> ss[0][k] == c[k];
          } else {
            assert forall k :: 0 <= k < |Concat(ss[1..])| ==> Concat(ss[1..])[k] == c[|ss[0]| + k];
            assert ss[i] == ss[1..][i - 1];
          }
        }
      }
      if forall i :: 0 <= i < |ss| ==> IsNullOrWhiteSpace(ss[i]) {
        assert IsNullOrWhiteSpace(ss[0]);
        assert forall i :: 0 <= i < |ss[1..]| ==> IsNullOrWhiteSpace(ss[1..][i]);
      }
    }
  }
}

=== FILE: wrappers.dfy ===
/** Option and result types shared by the model. The source signals failure by
    throwing; here every operation that can throw returns one of these. */
module Wrappers {

  datatype Option<T> = None | Some(value: T)

  /** The kinds of failure the settings code can run into. */
  datatype Error =
    | IoError        // a missing directory or file, or a path of the wrong kind
    | ParseError     // the file is not a well-formed XML document
    | CoercionError  // Convert.ChangeType could not convert an element's text

  datatype Result<T> = Ok(value: T) | Err(error: Error)

  /** The result of an operation that returns nothing (a C# `void` that may throw). */
  datatype Outcome = Pass | Fail(error: Error)
}
